=== FILE: README.md ===
# passman core, modelled in Dafny

This project models the core logic of passman. passman is a self-hosted password manager. It has two parts:

- a browser client, which calls a JSON-RPC 2.0 server and holds a session token;
- a Rust server, which keeps users, tokens and encrypted secrets in SQLite.

The model covers five parts of the system:

- **Browser RPC module** (`client.dfy`, module `Client`). This covers the process-wide session token, the request-id counter and the single-slot event bus (`on`, `emit`, `toast`). It also covers `rpc`, which builds the JSON-RPC envelope, injects the token, consumes an id, and handles errors: on code -2 it logs the user out, and on any error it emits `error` and rejects. The module-level variables become one immutable `State` record. Running a handler is recorded as an `Invocation` in the state's log.
- **Route guard** (`router.dfy`, module `Router`). This covers the route table and the `beforeEach` guard that sends visitors without a session to `login`.
- **Users and tokens** (`users.dfy`, module `Users`). A credential is 64 bytes, split into a password half and a salt half. The raw token is 104 bytes: 64 random bytes, then the 8-byte little-endian row id, then a SHA-256 digest. This module also covers parsing and idle expiry of tokens, the login throttle kept in the `suspend` column, and user creation.
- **Ciphertext framing** (`encryption.dfy`, module `Encryption`, with `bytes.dfy` and `primitives.dfy`). The manager appends a 4-byte little-endian encryptor id and dispatches on it. The AES-256-GCM encryptor appends its 12-byte nonce and checks key and data lengths.
- **SQL builders, error codes and request dispatch**:
  - `query.dfy`: the `join!`, `delete!`, `update!`, `insert!`, `insert_ignore!` and `select!` macros, as string functions.
  - `errors.dfy`: the wire error codes -1 and -2.
  - `server.dfy`: HTTP dispatch and static-path normalisation.

The abstract parts are handled as follows:

- **Crypto and encoding**: SHA-256 (FIPS 180-4), base64url without padding (section 5 of RFC 4648), Argon2 (RFC 9106) and AES-256-GCM (NIST SP 800-38D) are function-valued fields of `Primitives.Crypto`. The ghost predicate `WellBehaved` states the only facts the model uses about them:
  - the digest is 32 bytes;
  - base64 decoding undoes encoding;
  - a derived key has the requested length;
  - a sealed message is 16 bytes longer than the plaintext and opens back to it.
- **Clock**: the clock is the `now` parameter.
- **Random bytes**: these are parameters.
- **Database**: rows are inputs and writes are outputs.
- **Registry and assets**: the JSON-RPC registry's answer and the embedded asset table are inputs.

Two details of the browser client follow JavaScript semantics rather than the obvious reading:

- The guard tests the token's JavaScript truthiness, so an empty-string token also counts as "no session" (`Router.HasSession`).
- `rpc` branches on the truthiness of `result.error`. The model's `Response` therefore has exactly the two shapes `Success(result)` and `Failure(error)`.

## Model

| member | source | states |
|---|---|---|
| Client.SaveToken | html/src/lib.js:35-37 | saving a token replaces it and is read back by `getToken`; the id counter, handlers and log are untouched |
| Client.GetToken | html/src/lib.js:39-41 | reading the token and saving it back leaves the state unchanged, so `getToken` returns the held token |
| Client.Init | html/src/lib.js:1-44 | at module load the token is null, the next id is 1, no handler is registered and none has run |
| Client.SaveTokenOverwrites | html/src/lib.js:33-41 | the token starts as null; two saves leave exactly the second value |
| Client.On | html/src/lib.js:46-48 | `on` puts the handler under its event name and keeps every other name's handler |
| Client.Emit | html/src/lib.js:50-53 | an emit with no handler changes nothing; otherwise the handler runs once with exactly the given args |
| Client.Toast | html/src/lib.js:3-5 | `toast(m)` is `emit('error', m)` |
| Client.OnReplaces | html/src/lib.js:46-53 | after a second `on` for the same name, the next emit runs only the second handler, once |
| Client.EmitUnheard | html/src/lib.js:50-53 | emitting an event with no registered handler is a no-op |
| Client.Send | html/src/lib.js:7-20 | the POST to `/rpc` carries `{jsonrpc:"2.0", method, params, id}` with the current id, and the counter goes up by one; except for `user.create` and `user.login`, params gain `token` equal to the held token (null when none) and otherwise keep every key; for those two methods params are sent unchanged |
| Client.Receive | html/src/lib.js:21-30 | a result is returned with no emit and no state change; an error is thrown; code -2 clears the token and emits `invalid_token` and then `error` with the message; other codes emit only `error` and keep the token |
| Client.Rpc | html/src/lib.js:7-31 | a whole call consumes exactly one id whatever the response; it resolves if and only if the response has no error; the token changes only on code -2, where it becomes null |
| Client.InvalidTokenEmitsBoth | html/src/lib.js:22-29 | with both handlers registered, a -2 error runs the `invalid_token` handler with no args and then the `error` handler with the message, and nothing else; the token is null afterwards |
| Client.OtherErrorEmitsOnlyError | html/src/lib.js:22-29 | any other error code runs only the `error` handler (or nothing, when none is registered) and keeps the token |
| Client.ServerErrorsAtClient | html/src/lib.js:23-28 | the server's `invalid_token()` logs the client out; its `msg(m)` keeps the session and acts as `toast(m)` |
| Client.RunCalls | html/src/lib.js:1-18 | in successive calls, the i-th request carries the starting id plus i, and the counter ends advanced by the number of calls |
| Client.IdsFromInit | html/src/lib.js:1-18 | from module load the n-th request has id n+1, so ids strictly increase and are never reused |
| Router.PathOf | html/src/router/index.js:11-18 | a name is found exactly when a route declares it, and it maps to that route's path |
| Router.RouteTableIsInjective | html/src/router/index.js:11-18 | the six routes have pairwise distinct names and paths; `login` is `/login` and `create_user` is `/user/create` |
| Router.Guard | html/src/router/index.js:21-25 | the guard redirects, always to `login`, exactly when the token is falsy and the target is neither `create_user` nor `login`; unnamed targets are redirected too |
| Router.GuardRedirectIsAdmitted | html/src/router/index.js:21-25 | `login` and `create_user` are always admitted, so the redirect target is itself admitted and the guard cannot loop |
| Router.SessionAdmitsAll | html/src/router/index.js:22-22 | with a non-empty token every navigation is admitted |
| Router.InvalidTokenForcesLogin | html/src/router/index.js:21-25 | after an `rpc` call answered with code -2, every protected page redirects to `login` |
| Errors.InvalidToken | src/error.rs:3-9 | `invalid_token()` has code -2, the fixed message "登录已过期" and no data |
| Errors.Msg | src/error.rs:11-17 | `msg(m)` has code -1, message `m` and no data, so it is never an invalid-token error |
| Errors.MsgDistinguishable | src/error.rs:3-17 | a `msg` error never equals `invalid_token()`, and two `msg` errors are equal exactly when their messages are |
| Bytes.I64ToLe | src/user.rs:118-118 | `i64::to_le_bytes` gives 8 bytes that `from_le_bytes` maps back to the id |
| Bytes.I64LeRoundTrip | src/user.rs:173-175 | re-encoding the id decoded from 8 bytes reproduces the bytes |
| Bytes.U32ToLe | src/encryption.rs:49-49 | the encryptor id is written as 4 bytes that `u32::from_le_bytes` reads back to the id |
| Bytes.U32FromLe | src/encryption.rs:67-69 | the id read from 4 bytes is the one whose little-endian encoding is exactly those bytes |
| Bytes.I64FromLe | src/user.rs:173-175 | the id read from 8 bytes is an i64 whose two's-complement little-endian encoding is exactly those bytes |
| Bytes.LeBytesOfValue | src/encryption.rs:67-69 | reading little-endian bytes and writing the value at the same width gives the bytes back |
| Encryption.AesEncrypt | src/encryption.rs:104-115 | a key that is not 32 bytes fails with InvalidLength; otherwise the result is the sealed ciphertext followed by the 12-byte nonce, and it fails exactly when sealing fails |
| Encryption.AesDecrypt | src/encryption.rs:117-131 | a key that is not 32 bytes, or data of at most 12 bytes, fails with InvalidLength; otherwise the last 12 bytes are the nonce for opening the rest |
| Encryption.AesRoundTrip | src/encryption.rs:104-131 | the AES-256-GCM encryptor decrypts what it encrypted under the same key |
| Encryption.IndexById | src/encryption.rs:21-24 | the map's keys are exactly the listed ids, and each entry is stored under its own id |
| Encryption.IndexByIdLastWins | src/encryption.rs:21-24 | each map entry is the last listed encryptor with that id, so a later duplicate overwrites an earlier one |
| Encryption.NewManager | src/encryption.rs:17-30 | for a non-empty list, the default id is the first encryptor's id and the map holds every listed id |
| Encryption.Encryptor.Id | src/encryption.rs:89-98 | the AES-256-GCM encryptor's id is 1, so its ciphertexts end in the bytes 01 00 00 00 |
| Encryption.Encryptor.KeySize | src/encryption.rs:89-102 | the key size is the one the cipher accepts: keys of that length pass the length check of encrypt, and keys of any other length fail decrypt with InvalidLength |
| Encryption.DeriveKey | src/encryption.rs:32-43 | the key is exactly Argon2's output for the password, salt and requested size, so it has that size; the call fails with a key-derivation error exactly when Argon2 fails |
| Encryption.Encrypt | src/encryption.rs:45-51 | succeeds exactly when key derivation and the default encryptor both succeed, and otherwise passes on the first failure; on success the output is the default encryptor's output, under a key of that encryptor's own size, followed by the 4 little-endian bytes of its id |
| Encryption.FindEncryptor | src/encryption.rs:63-71 | data shorter than 4 bytes finds nothing; otherwise the encryptor is found exactly when the id read from the last 4 bytes is registered, and it has that id |
| Encryption.Decrypt | src/encryption.rs:53-61 | decrypt fails with "unknown encryptor" exactly when no encryptor is found; otherwise that encryptor gets the data without its last 4 bytes and a key of its own size |
| Encryption.RoundTrip | src/encryption.rs:138-150 | when Argon2 and the cipher accept their inputs, the manager's encryption succeeds and decrypts back to the plaintext under the same password and salt |
| Encryption.UnknownIdRefused | src/encryption.rs:53-71 | short data, or data naming an unregistered id, is refused as unknown encryptor |
| Users.Generate | src/user.rs:29-33 | a generated credential is 64 bytes, and its password and salt halves are 32 bytes each |
| Users.Password | src/user.rs:35-37 | the password half is the first 32 bytes of the credential |
| Users.Salt | src/user.rs:39-41 | the salt half is the rest of the credential: the password half followed by it is the whole credential |
| Users.ToVec | src/user.rs:263-268 | `to_vec` is the password half followed by the salt half, which is the credential's bytes |
| Users.NextSuspend | src/user.rs:86-90 | after a failed attempt, `suspend` becomes the count plus one while that stays below 5, and otherwise `now + 300`, a time after now |
| Users.Login | src/user.rs:62-98 | an unknown user gets "wrong username or password" and nothing is written; `suspend > now` is refused with "try again later" and nothing is written; otherwise a successful decrypt returns the user with the decrypted credential and writes `suspend = 0`, and a failed one returns the same wrong-credentials error and writes the next suspend value |
| Users.SuspendedIgnoresPassword | src/user.rs:67-69 | while suspended, the answer does not depend on the password |
| Users.UnknownUserLooksLikeWrongPassword | src/user.rs:62-95 | an unknown username and a wrong password produce the same error |
| Users.FailuresCount | src/user.rs:86-90 | below five failures, `suspend` counts the failures whatever their times |
| Users.FifthFailureSuspends | src/user.rs:86-93 | the fifth consecutive failure from a reset account stores its time plus 300 |
| Users.ElapsedSuspensionResuspends | src/user.rs:67-90 | after a suspension has elapsed, one more failure suspends again, and for the next 300 seconds even the right password is refused |
| Users.CreateUser | src/user.rs:128-157 | an empty username or password is "bad arguments"; a failed encryption of the credential is returned as that cipher error and inserts nothing; once the credential has been encrypted, a taken name is "user already exists"; a row is inserted exactly when the call succeeds; success inserts the salt and the encrypted credential and returns the new id with the generated credential |
| Users.CreateUserInserts | src/user.rs:128-157 | with a non-empty free name and password, and a credential that encrypts, the row inserted holds the username, the salt, the encrypted credential and the creation time, and the result is the new row id with the generated credential |
| Users.CreatedUserCanLogIn | src/user.rs:74-83 | the row `create_user` inserts logs in with the same password (at any non-negative time), gets the generated credential back and has `suspend` reset |
| Users.RawToken | src/user.rs:117-124 | the raw token is 104 bytes: the 64 random bytes, the 8 little-endian bytes that decode to the row id, and the SHA-256 of the first 72 bytes followed by the encrypted credential |
| Users.CreateToken | src/user.rs:101-125 | issuing succeeds exactly when the user's credential encrypts under the token's halves; the token row stores the user id, that ciphertext and `now`; the token is the base64url of the raw layout; a failure is exactly that encryption's cipher error |
| Users.FindUserOptional | src/user.rs:168-207 | a non-base64 token is an error; a token of the wrong length is None; a decoded token whose id has no row, whose digest does not match, whose row has been idle for 300 seconds, or whose user row is missing is None; when every check passes, the result is the user with the credential decrypted under the token's two halves, or the decryption error |
| Users.FindUser | src/user.rs:160-165 | a token that finds no user is the invalid-token error (-2); errors of the lookup pass through unchanged; a found user is returned as found |
| Users.IssuedTokenFindsUser | src/user.rs:101-207 | issuing succeeds when the credential encrypts, and the issued token, once its row is stored under its id, finds the same user with the same credential for 300 seconds |
| Users.IdleTokenExpires | src/user.rs:188-190 | once every token row has been idle for 300 seconds, any decodable token finds nobody and `find_user` answers -2 |
| Query.StringifyOp | src/query.rs:1-8 | a string literal operator (kept as written, quotes included) contributes its text without the double quotes; a character literal contributes its one character; a boolean or plain decimal literal contributes its source; a token contributes its spelling |
| Query.OpSpellingsAgree | src/query.rs:1-8 | the quoted literal `"T"` and the token `T` give the same WHERE item, ``` `field` T ?```; the character literal `'c'` and the token `c` give the same WHERE item |
| Query.Join | src/query.rs:10-20 | the left-folding `join!` equals the interleaving of the items with the separator between neighbours; one item yields itself |
| Query.JoinCount | src/query.rs:10-20 | joining n items adds exactly n-1 separators |
| Query.Placeholders | src/query.rs:44-49 | `@placeholder` for n fields is 2n-1 characters alternating `?` and `,`, starting and ending with `?` |
| Query.PlaceholdersAreJoined | src/query.rs:44-49 | `@placeholder` for n fields is n question marks joined by commas |
| Query.Delete | src/query.rs:22-27 | the text is ``DELETE FROM `table` WHERE `` followed by the WHERE items separated by ` AND `; the WHERE values are bound in field order |
| Query.Update | src/query.rs:29-37 | the text is ``UPDATE `table` SET `` followed by the SET items separated by `, `, then ` WHERE ` and the WHERE items separated by ` AND `; all SET values are bound, in order, before all WHERE values |
| Query.InsertIgnore | src/query.rs:52-57 | `insert_ignore!` binds the values in field order, and the statement starts with ``INSERT OR IGNORE INTO ` `` |
| Query.Select | src/query.rs:59-77 | the text is `SELECT`, the field list, ``FROM `table` WHERE `` and the WHERE items separated by ` AND `, then a space and the clause when one is given; the WHERE values are bound in field order |
| Query.DeletePlaceholders | src/query.rs:22-27 | the DELETE text has one `?` per bound value |
| Query.UpdatePlaceholders | src/query.rs:29-37 | the UPDATE text has one `?` per bound value |
| Query.InsertPlaceholders | src/query.rs:39-50 | the INSERT text has one `?` per field and per bound value |
| Query.InsertIgnoreIsInsert | src/query.rs:52-57 | `insert_ignore!` is `insert!` with `INSERT OR IGNORE INTO` in place of `INSERT INTO`, with the same binds and one `?` per bound value |
| Query.SelectPlaceholders | src/query.rs:59-77 | the SELECT text, with or without a trailing clause, has one `?` per bound value |
| Query.FieldList | src/query.rs:65-70 | an empty field list selects `*`, otherwise the backticked fields separated by commas |
| Query.SelectShape | src/query.rs:59-77 | the SELECT text is the fields, table and WHERE list, followed by a single space and the clause when one is given |
| Query.InsertWith | src/query.rs:39-57 | the text is the verb, `` `table`( ``, the field names separated by commas, `) VALUES (`, one `?` per field separated by commas, and `)`; the values are bound in field order |
| Query.Insert | src/query.rs:39-50 | `insert!` binds the values in field order, and the statement starts with ``INSERT INTO ` `` |
| Server.Dispatch | src/main.rs:81-86 | POST `/rpc` goes to the RPC handler; in release builds every other GET goes to static serving; everything else, and every non-RPC request in debug builds, is 404 |
| Server.TrimLeadingSlashes | src/main.rs:146-146 | strips exactly the leading run of `/`, so the rest does not start with `/` |
| Server.AssetName | src/main.rs:146-149 | the asset name never starts with `/` and is `index.html` when nothing is left after the slashes |
| Server.AssetNameIgnoresSlashes | src/main.rs:146-149 | an extra leading `/` never changes the asset, and normalising twice is normalising once |
| Server.NotFound | src/main.rs:177-181 | `not_found()` is the default response with only its status changed to 404: empty body, no content type |
| Server.HandleStatic | src/main.rs:145-163 | a known asset is served with status 200, its MIME type and its bytes; a missing one is 404 |
| Server.HandleRpc | src/main.rs:124-142 | with no registry response the answer is the default empty 200; otherwise the body is the serialised JSON with content type `application/json` |
| Server.RpcServedInEveryBuild | src/main.rs:81-86 | the RPC route is answered by `handle_rpc` in both builds, and in a debug build no other request gets a 200 |
| Server.Serve | src/main.rs:81-86 | POST `/rpc` is answered by the RPC handler in both builds; in a release build every GET, including GET `/rpc`, is static serving; every other request is 404 |
| Server.RootServesIndex | src/main.rs:146-150 | in a release build, a GET of a path made only of slashes serves `index.html` |

## Left out

- `fetch` and `response.json()` in html/src/lib.js are replaced by the parsed response, given as input. Transport and JSON failures are not modelled, and neither are interleavings of concurrent in-flight calls.
- `rpc` also writes `token` into the caller's own params object (aliasing). The model describes only the params that are sent.
- The key order that `JSON.stringify` produces for the envelope is not modelled; the envelope is a record.
- Client.Emit: looks event names up only among names registered with `on`. In the source, `handler` is a plain object, so names such as `constructor`, `valueOf` or `hasOwnProperty` reach `Object.prototype` members. Emitting one of them runs that built-in, and for most of them this throws. A falsy handler passed to `on` is also skipped by `func && ...`, so `on(name, null)` unregisters. The model treats handlers as identities that always run. The two event names `rpc` itself emits, `error` and `invalid_token`, are not `Object.prototype` members.
- Client.IdsFromInit: the request counter is an unbounded integer. In the source it is a JavaScript Number, so past 2^53 `id++` stops increasing and ids would repeat. Reaching that many calls in one page load is not possible in practice.
- Handler bodies are opaque identities. A handler that throws, and so aborts `emit` and `rpc`, is not modelled.
- vue-router itself (history, matching) is not modelled. The guard's target name is an `Option<string>`, where None stands for an unnamed route.
- The model takes one `now` per operation. The source calls `timestamp()` separately at each use.
- `Users.NextSuspend`: does not model i64 overflow of `suspend + 1` or `timestamp() + 300`, because real timestamps are far from the limit. The same holds for `last_active + 300` in `Users.FindUserOptional`.
- Database errors propagated with `?` from sqlx are not modelled, and neither is the i32/i64 mismatch between token ids and `TokenRow.id`. Rows are given as maps or options.
- `Users.CreateUser`: the UNIQUE username column is modelled as the set of existing usernames, and `last_insert_rowid` is the `rowId` input.
- The password string is taken as its byte encoding. Empty strings are exactly empty byte strings.
- `Users.FindUserOptional` reports the id of the token row whose `last_active` it refreshes, rather than executing the UPDATE.
- `Encryption.Encrypt`: the random 12-byte nonce is an input, because the only `Encryptor` implementation in the repository (AES-256-GCM) draws it from the OS RNG.
- The `Encryptor` trait becomes a datatype whose only constructor is that implementation.
- The actual AES-GCM, Argon2, SHA-256 and base64url algorithms are foreign library calls. They are abstract, and only the facts in `Primitives.WellBehaved` are assumed.
- The following parts of src/main.rs are I/O and concurrency, and are not modelled: the TCP accept loop, `tokio::spawn`, hyper connection serving, logging (`log_error`, `init_logger`), command-line options and `setup_db`. The registry's JSON-RPC handling and the serde serialiser are inputs.
- The MIME type of an embedded asset is an input from the asset table.
- src/service.rs (method registration, error wrapping) is not part of this model, and neither are src/password.rs (CRUD over SQLite), src/db.rs (schema and pool), src/util.rs (clock and RNG), html/src/main.js and html/vite.config.js.
- The macros in src/query.rs are modelled on the strings they expand to. Running the statements through sqlx is not modelled. The `Statement` carries the bound values in bind order.
- Query.StringifyOp: strips only the enclosing quotes of a string or character literal. Escape sequences are not decoded, and raw or byte string literals are not distinguished. Numeric literals are not converted: `concat!` writes an integer literal as its decimal value (`0x10` gives `16`, `1u8` gives `1`) and drops a float literal's suffix, while the model keeps their source text. That agrees only for plain decimal literals without leading zeros, underscores or suffix. Every macro call in src/user.rs and src/password.rs uses the token `=`.

=== FILE: bytes.dfy ===
/**
 * Bytes and the little-endian integer encodings the server uses:
 * `u32::to_le_bytes`/`from_le_bytes` for encryptor ids and
 * `i64::to_le_bytes`/`from_le_bytes` (two's complement) for token row ids.
 */
module Bytes {

  newtype byte = x: int | 0 <= x < 256

  type u32 = x: int | 0 <= x < 0x1_0000_0000

  const I64_MIN: int := -0x8000_0000_0000_0000
  const I64_LIMIT: int := 0x8000_0000_0000_0000
  const U64_LIMIT: int := 0x1_0000_0000_0000_0000

  predicate InI64(x: int) {
    I64_MIN <= x < I64_LIMIT
  }

  function Pow256(n: nat): (r: nat)
    ensures r >= 1
  {
    if n == 0 then 1 else 256 * Pow256(n - 1)
  }

  /** The unsigned value of `b` read least significant byte first. */
  function LeValue(b: seq<byte>): (v: nat)
    ensures v < Pow256(|b|)
  {
    if |b| == 0 then 0 else b[0] as nat + 256 * LeValue(b[1..])
  }

  /** The `width` bytes of `n`, least significant first. */
  function LeBytes(n: nat, width: nat): (b: seq<byte>)
    requires n < Pow256(width)
    ensures |b| == width
    ensures LeValue(b) == n
  {
    if width == 0 then []
    else [(n % 256) as byte] + LeBytes(n / 256, width - 1)
  }

  /** Reading a byte string and writing it back at the same width gives it back. */
  lemma {:induction false} LeBytesOfValue(b: seq<byte>)
    ensures LeBytes(LeValue(b), |b|) == b
  {
    if |b| > 0 {
      LeBytesOfValue(b[1..]);
      assert (LeValue(b) % 256) as byte == b[0];
      assert LeValue(b) / 256 == LeValue(b[1..]);
    }
  }

  function U32ToLe(x: u32): (b: seq<byte>)
    ensures |b| == 4
    ensures U32FromLe(b) == x
  {
    LeBytes(x, 4)
  }

  /** `u32::from_le_bytes`: the id whose little-endian bytes are exactly `b`. */
  function U32FromLe(b: seq<byte>): (x: u32)
    requires |b| == 4
    ensures LeBytes(x, 4) == b
  {
    LeBytesOfValue(b);
    LeValue(b)
  }

  /** `i64::to_le_bytes`: two's complement in eight bytes. */
  function I64ToLe(x: int): (b: seq<byte>)
    requires InI64(x)
    ensures |b| == 8
    ensures I64FromLe(b) == x
  {
    LeBytes(if x < 0 then x + U64_LIMIT else x, 8)
  }

  /** `i64::from_le_bytes`. */
  function I64FromLe(b: seq<byte>): (x: int)
    requires |b| == 8
    ensures InI64(x)
    ensures LeBytes(if x < 0 then x + U64_LIMIT else x, 8) == b
  {
    LeBytesOfValue(b);
    var v := LeValue(b);
    if v >= I64_LIMIT then v - U64_LIMIT else v
  }

  /** Decoding eight bytes and encoding the id again reproduces them. */
  lemma I64LeRoundTrip(b: seq<byte>)
    requires |b| == 8
    ensures I64ToLe(I64FromLe(b)) == b
  {
    LeBytesOfValue(b);
  }
}

=== FILE: client.dfy ===
/**
 * The browser-side RPC module (html/src/lib.js): a process-wide session
 * token, a request-id counter, a single-slot event bus and the `rpc` call
 * that ties them together.
 *
 * The module-level variables `token`, `id` and `handler` become one explicit
 * `State` record threaded through pure functions. Handler functions are
 * represented by an identity, and running a handler is recorded as an
 * `Invocation` appended to the state's log, so "which handler ran, for which
 * event, with which arguments, in which order" is observable. The network
 * round trip of `fetch` is replaced by the parsed response, given as input.
 */
module Client {
  import opened Wrappers
  import opened Json
  import Errors

  /** Identity of a JavaScript handler function passed to `on`. */
  type HandlerId = nat

  /** One synchronous run of a registered handler. */
  datatype Invocation = Invocation(handler: HandlerId, event: string, args: seq<Json>)

  datatype State = State(
    token: Option<string>,              // `token`, null when None
    nextId: int,                        // `id`, the next request id
    handlers: map<string, HandlerId>,   // `handler`
    log: seq<Invocation>                // every handler run so far, oldest first
  )

  /** The JSON-RPC 2.0 request object (section 4 of the JSON-RPC 2.0 specification). */
  datatype Request = Request(jsonrpc: string, methodName: string, params: map<string, Json>, id: int)

  /** The `fetch` the client performs: method, path and JSON body. */
  datatype HttpCall = HttpCall(httpMethod: string, path: string, body: Request)

  /** A parsed JSON-RPC response: exactly one of `result` and `error`. */
  datatype Response = Success(result: Json) | Failure(error: RpcError)

  /** How a call settles: it resolves with a value or rejects with the error object. */
  datatype Outcome = Returned(value: Json) | Thrown(error: RpcError)

  const RPC_PATH := "/rpc"
  const JSONRPC_VERSION := "2.0"
  const TOKEN_PARAM := "token"
  const ERROR_EVENT := "error"
  const INVALID_TOKEN_EVENT := "invalid_token"
  const INVALID_TOKEN_CODE := -2

  /** Module load: `token = null`, `id = 1`, `handler = {}`. */
  function Init(): (s: State)
    ensures s.token == None && s.nextId == 1
    ensures s.handlers == map[] && s.log == []
  {
    State(None, 1, map[], [])
  }

  /** The two bootstrap methods are the only ones sent without a token. */
  predicate NeedsToken(methodName: string) {
    methodName != "user.create" && methodName != "user.login"
  }

  /** The JSON the held token serialises to: `null` when there is none. */
  function TokenJson(t: Option<string>): Json {
    match t
    case None => JNull
    case Some(v) => JStr(v)
  }

  // ---------------------------------------------------------------- session

  function SaveToken(s: State, t: Option<string>): (s': State)
    ensures s'.token == t
    ensures s'.nextId == s.nextId && s'.handlers == s.handlers && s'.log == s.log
  {
    s.(token := t)
  }

  /** Reading the token and saving it back changes nothing. */
  function GetToken(s: State): (t: Option<string>)
    ensures SaveToken(s, t) == s
  {
    s.token
  }

  /** Saving replaces the token completely: only the last saved value is read back. */
  lemma SaveTokenOverwrites(s: State, a: Option<string>, b: Option<string>)
    ensures SaveToken(SaveToken(s, a), b) == SaveToken(s, b)
    ensures GetToken(SaveToken(SaveToken(s, a), b)) == b
    ensures GetToken(Init()) == None
  {
  }

  // -------------------------------------------------------------- event bus

  function On(s: State, event: string, h: HandlerId): (s': State)
    ensures event in s'.handlers && s'.handlers[event] == h
    ensures forall e :: e in s.handlers && e != event ==> e in s'.handlers && s'.handlers[e] == s.handlers[e]
    ensures s'.handlers.Keys == s.handlers.Keys + {event}
    ensures s'.token == s.token && s'.nextId == s.nextId && s'.log == s.log
  {
    s.(handlers := s.handlers[event := h])
  }

  function Emit(s: State, event: string, args: seq<Json>): (s': State)
    ensures s'.token == s.token && s'.nextId == s.nextId && s'.handlers == s.handlers
    ensures event !in s.handlers ==> s' == s
    ensures event in s.handlers ==> s'.log == s.log + [Invocation(s.handlers[event], event, args)]
  {
    if event in s.handlers then
      s.(log := s.log + [Invocation(s.handlers[event], event, args)])
    else
      s
  }

  /** `toast(m)` shows `m` through whatever handler is registered for `error`. */
  function Toast(s: State, m: string): (s': State)
    ensures s' == Emit(s, ERROR_EVENT, [JStr(m)])
    ensures ERROR_EVENT !in s.handlers ==> s' == s
    ensures ERROR_EVENT in s.handlers ==>
      s'.log == s.log + [Invocation(s.handlers[ERROR_EVENT], ERROR_EVENT, [JStr(m)])]
  {
    Emit(s, ERROR_EVENT, [JStr(m)])
  }

  /** Registering a second handler under a name silences the first: the next
      emit runs only the second, once. */
  lemma OnReplaces(s: State, event: string, h1: HandlerId, h2: HandlerId, args: seq<Json>)
    ensures On(On(s, event, h1), event, h2) == On(s, event, h2)
    ensures Emit(On(On(s, event, h1), event, h2), event, args).log
         == s.log + [Invocation(h2, event, args)]
  {
  }

  /** Emitting an event nobody listens to changes nothing. */
  lemma EmitUnheard(s: State, event: string, args: seq<Json>)
    requires event !in s.handlers
    ensures Emit(s, event, args) == s
  {
  }

  // -------------------------------------------------------------------- rpc

  /** The synchronous part of `rpc` before the `await`: inject the token,
      take the id, build the POST. */
  function Send(s: State, methodName: string, params: map<string, Json>): (res: (HttpCall, State))
    ensures res.0.httpMethod == "POST" && res.0.path == RPC_PATH
    ensures res.0.body.jsonrpc == JSONRPC_VERSION && res.0.body.methodName == methodName
    ensures res.0.body.id == s.nextId
    ensures NeedsToken(methodName) ==>
      TOKEN_PARAM in res.0.body.params && res.0.body.params[TOKEN_PARAM] == TokenJson(s.token)
      && forall k :: k in params && k != TOKEN_PARAM ==> k in res.0.body.params && res.0.body.params[k] == params[k]
    ensures NeedsToken(methodName) ==> res.0.body.params.Keys == params.Keys + {TOKEN_PARAM}
    ensures !NeedsToken(methodName) ==> res.0.body.params == params
    ensures res.1 == s.(nextId := s.nextId + 1)
  {
    var sent := if NeedsToken(methodName) then params[TOKEN_PARAM := TokenJson(GetToken(s))] else params;
    (HttpCall("POST", RPC_PATH, Request(JSONRPC_VERSION, methodName, sent, s.nextId)), s.(nextId := s.nextId + 1))
  }

  /** The part of `rpc` after the response arrived. */
  function Receive(s: State, response: Response): (res: (Outcome, State))
    ensures res.1.nextId == s.nextId && res.1.handlers == s.handlers
    ensures response.Success? ==> res == (Returned(response.result), s)
    ensures response.Failure? ==> res.0 == Thrown(response.error)
    ensures response.Failure? && response.error.code == INVALID_TOKEN_CODE ==>
      res.1.token == None
      && res.1 == Emit(Emit(s.(token := None), INVALID_TOKEN_EVENT, []), ERROR_EVENT, [JStr(response.error.message)])
    ensures response.Failure? && response.error.code != INVALID_TOKEN_CODE ==>
      res.1.token == s.token
      && res.1 == Emit(s, ERROR_EVENT, [JStr(response.error.message)])
  {
    match response
    case Success(result) => (Returned(result), s)
    case Failure(error) =>
      var s1 := if error.code == INVALID_TOKEN_CODE then Emit(SaveToken(s, None), INVALID_TOKEN_EVENT, []) else s;
      var s2 := Emit(s1, ERROR_EVENT, [JStr(error.message)]);
      (Thrown(error), s2)
  }

  datatype RpcStep = RpcStep(call: HttpCall, outcome: Outcome, state: State)

  /** One complete `rpc(method, params)` whose server answered `response`. */
  function Rpc(s: State, methodName: string, params: map<string, Json>, response: Response): (r: RpcStep)
    ensures r.call == Send(s, methodName, params).0
    ensures r.state.nextId == s.nextId + 1 && r.state.handlers == s.handlers
    ensures response.Success? <==> r.outcome.Returned?
    ensures response.Success? ==> r.outcome.value == response.result && r.state.token == s.token && r.state.log == s.log
    ensures response.Failure? ==> r.outcome == Thrown(response.error)
    ensures response.Failure? && response.error.code != INVALID_TOKEN_CODE ==> r.state.token == s.token
    ensures response.Failure? && response.error.code == INVALID_TOKEN_CODE ==> r.state.token == None
  {
    var (call, s1) := Send(s, methodName, params);
    var (outcome, s2) := Receive(s1, response);
    RpcStep(call, outcome, s2)
  }

  /** With both events listened to, an invalid-token error runs the
      `invalid_token` handler with no arguments and then the `error` handler
      with the message, and nothing else. */
  lemma InvalidTokenEmitsBoth(s: State, methodName: string, params: map<string, Json>, e: RpcError)
    requires e.code == INVALID_TOKEN_CODE
    requires INVALID_TOKEN_EVENT in s.handlers && ERROR_EVENT in s.handlers
    ensures Rpc(s, methodName, params, Failure(e)).state.log
         == s.log + [Invocation(s.handlers[INVALID_TOKEN_EVENT], INVALID_TOKEN_EVENT, []),
                     Invocation(s.handlers[ERROR_EVENT], ERROR_EVENT, [JStr(e.message)])]
    ensures GetToken(Rpc(s, methodName, params, Failure(e)).state) == None
  {
  }

  /** Any other error runs only the `error` handler and keeps the session. */
  lemma OtherErrorEmitsOnlyError(s: State, methodName: string, params: map<string, Json>, e: RpcError)
    requires e.code != INVALID_TOKEN_CODE
    ensures ERROR_EVENT in s.handlers ==>
      Rpc(s, methodName, params, Failure(e)).state.log
      == s.log + [Invocation(s.handlers[ERROR_EVENT], ERROR_EVENT, [JStr(e.message)])]
    ensures ERROR_EVENT !in s.handlers ==> Rpc(s, methodName, params, Failure(e)).state.log == s.log
    ensures GetToken(Rpc(s, methodName, params, Failure(e)).state) == GetToken(s)
  {
  }

  /** The server's two error constructors drive the client's two paths:
      `invalid_token()` logs the user out, `msg(..)` only shows the message. */
  lemma ServerErrorsAtClient(s: State, methodName: string, params: map<string, Json>, m: string)
    ensures GetToken(Rpc(s, methodName, params, Failure(Errors.InvalidToken())).state) == None
    ensures GetToken(Rpc(s, methodName, params, Failure(Errors.Msg(m))).state) == GetToken(s)
    ensures Rpc(s, methodName, params, Failure(Errors.Msg(m))).state.log == Toast(s, m).log
  {
  }

  // ------------------------------------------------------ successive calls

  /** A call issued after the previous one settled, with the response it gets. */
  datatype Call = Call(methodName: string, params: map<string, Json>, response: Response)

  datatype Run = Run(sent: seq<HttpCall>, outcomes: seq<Outcome>, state: State)

  /** Issue `calls` one after another; a rejected call does not stop the
      caller from issuing the next. */
  function RunCalls(s: State, calls: seq<Call>): (r: Run)
    ensures |r.sent| == |calls| && |r.outcomes| == |calls|
    ensures forall i :: 0 <= i < |calls| ==> r.sent[i].body.id == s.nextId + i
    ensures r.state.nextId == s.nextId + |calls|
    ensures r.state.handlers == s.handlers
    decreases |calls|
  {
    if |calls| == 0 then Run([], [], s)
    else
      var step := Rpc(s, calls[0].methodName, calls[0].params, calls[0].response);
      var rest := RunCalls(step.state, calls[1..]);
      Run([step.call] + rest.sent, [step.outcome] + rest.outcomes, rest.state)
  }

  /** From module load, the n-th call (counting from 0) carries id n + 1, so
      ids are strictly increasing and never reused, whatever the responses. */
  lemma IdsFromInit(calls: seq<Call>)
    ensures forall i :: 0 <= i < |calls| ==> RunCalls(Init(), calls).sent[i].body.id == i + 1
    ensures forall i, j :: 0 <= i < j < |calls| ==>
      RunCalls(Init(), calls).sent[i].body.id < RunCalls(Init(), calls).sent[j].body.id
  {
    var r := RunCalls(Init(), calls);
    assert forall i :: 0 <= i < |calls| ==> r.sent[i].body.id == i + 1;
  }
}

=== FILE: encryption.dfy ===
/**
 * Ciphertext framing (src/encryption.rs). The manager derives a key with
 * Argon2, lets the default encryptor encrypt, and appends the encryptor's
 * id as four little-endian bytes; decryption reads the trailing id to pick
 * the encryptor back. The AES-256-GCM encryptor appends its random 12-byte
 * nonce to the ciphertext.
 */
module Encryption {
  import opened Wrappers
  import opened Bytes
  import opened Primitives

  const ENCRYPTOR_ID_SIZE := 4

  datatype CryptoError =
    | InvalidLength       // `aes_gcm::aes::cipher::InvalidLength`
    | UnknownEncryptor    // "unknown encryptor"
    | KeyDerivation       // Argon2 refused its inputs
    | AeadFailure         // the cipher failed, or the tag did not authenticate

  /** The implementors of the `Encryptor` trait; the repository has one. */
  datatype Encryptor = Aes256Gcm {

    /** The id the manager appends: the trailer bytes are 01 00 00 00. */
    function Id(): (id: u32)
      ensures U32ToLe(id) == [1, 0, 0, 0]
    {
      1
    }

    /** The key size the manager derives: exactly the length the cipher accepts. */
    function KeySize(): (n: nat)
      ensures forall c, data, key, nonce :: |key| == n && |nonce| == AES_NONCE_SIZE ==>
        AesEncrypt(c, data, key, nonce) != Err(InvalidLength)
      ensures forall c, data, key :: |key| != n ==> AesDecrypt(c, data, key) == Err(InvalidLength)
    {
      AES_KEY_SIZE
    }

    function Encrypt(c: Crypto, data: seq<byte>, key: seq<byte>, nonce: seq<byte>): Result<seq<byte>, CryptoError>
      requires |nonce| == AES_NONCE_SIZE
    {
      AesEncrypt(c, data, key, nonce)
    }

    function Decrypt(c: Crypto, data: seq<byte>, key: seq<byte>): Result<seq<byte>, CryptoError> {
      AesDecrypt(c, data, key)
    }
  }

  /** `Aes256GcmEncryptor::encrypt`, with the random nonce as input. */
  function AesEncrypt(c: Crypto, data: seq<byte>, key: seq<byte>, nonce: seq<byte>): (r: Result<seq<byte>, CryptoError>)
    requires |nonce| == AES_NONCE_SIZE
    ensures |key| != AES_KEY_SIZE ==> r == Err(InvalidLength)
    ensures |key| == AES_KEY_SIZE ==> (r.Ok? <==> c.seal(key, nonce, data).Some?)
    ensures r.Ok? ==>
      |r.value| >= AES_NONCE_SIZE
      && r.value[|r.value| - AES_NONCE_SIZE..] == nonce
      && r.value[..|r.value| - AES_NONCE_SIZE] == c.seal(key, nonce, data).value
  {
    if |key| != AES_KEY_SIZE then Err(InvalidLength)
    else match c.seal(key, nonce, data)
      case None => Err(AeadFailure)
      case Some(ct) => Ok(ct + nonce)
  }

  /** `Aes256GcmEncryptor::decrypt`: the trailing 12 bytes are the nonce. */
  function AesDecrypt(c: Crypto, data: seq<byte>, key: seq<byte>): (r: Result<seq<byte>, CryptoError>)
    ensures |key| != AES_KEY_SIZE || |data| <= AES_NONCE_SIZE ==> r == Err(InvalidLength)
    ensures |key| == AES_KEY_SIZE && |data| > AES_NONCE_SIZE ==>
      var plain := c.open(key, data[|data| - AES_NONCE_SIZE..], data[..|data| - AES_NONCE_SIZE]);
      (r.Ok? <==> plain.Some?) && (r.Ok? ==> r.value == plain.value)
  {
    if |key| != AES_KEY_SIZE then Err(InvalidLength)
    else if |data| <= AES_NONCE_SIZE then Err(InvalidLength)
    else match c.open(key, data[|data| - AES_NONCE_SIZE..], data[..|data| - AES_NONCE_SIZE])
      case None => Err(AeadFailure)
      case Some(pt) => Ok(pt)
  }

  /** The AES-256-GCM encryptor decrypts what it encrypted under the same key. */
  lemma AesRoundTrip(c: Crypto, data: seq<byte>, key: seq<byte>, nonce: seq<byte>)
    requires WellBehaved(c)
    requires |nonce| == AES_NONCE_SIZE
    requires AesEncrypt(c, data, key, nonce).Ok?
    ensures AesDecrypt(c, AesEncrypt(c, data, key, nonce).value, key) == Ok(data)
  {
    var framed := AesEncrypt(c, data, key, nonce).value;
    var ct := c.seal(key, nonce, data).value;
    assert framed == ct + nonce;
    assert framed[|framed| - AES_NONCE_SIZE..] == nonce;
    assert framed[..|framed| - AES_NONCE_SIZE] == ct;
  }

  // ----------------------------------------------------------------- manager

  /** A map from id to encryptor, filled in list order so that a later
      encryptor replaces an earlier one with the same id. */
  function IndexById<E>(es: seq<E>, idOf: E -> u32): (m: map<u32, E>)
    ensures m.Keys == set i | 0 <= i < |es| :: idOf(es[i])
    ensures forall k :: k in m ==> idOf(m[k]) == k
    decreases |es|
  {
    if |es| == 0 then map[]
    else
      var prefix := es[..|es| - 1];
      var last := es[|es| - 1];
      assert forall i :: 0 <= i < |prefix| ==> prefix[i] == es[i];
      assert (set i | 0 <= i < |es| :: idOf(es[i])) == (set i | 0 <= i < |prefix| :: idOf(prefix[i])) + {idOf(last)};
      IndexById(prefix, idOf)[idOf(last) := last]
  }

  /** `es[i]` is the last element of `es` whose id is `k`. */
  ghost predicate LastWithId<E>(es: seq<E>, idOf: E -> u32, i: int, k: u32) {
    0 <= i < |es| && idOf(es[i]) == k && forall j :: i < j < |es| ==> idOf(es[j]) != k
  }

  /** Last registration wins: each entry of the map is the last listed element with that id. */
  lemma {:induction false} IndexByIdLastWins<E>(es: seq<E>, idOf: E -> u32, k: u32)
    requires k in IndexById(es, idOf)
    ensures exists i :: LastWithId(es, idOf, i, k) && es[i] == IndexById(es, idOf)[k]
    decreases |es|
  {
    var prefix := es[..|es| - 1];
    var last := es[|es| - 1];
    if idOf(last) == k {
      assert LastWithId(es, idOf, |es| - 1, k);
    } else {
      assert k in IndexById(prefix, idOf);
      IndexByIdLastWins(prefix, idOf, k);
      var i :| LastWithId(prefix, idOf, i, k) && prefix[i] == IndexById(prefix, idOf)[k];
      assert LastWithId(es, idOf, i, k);
    }
  }

  datatype Manager = Manager(defaultEncryptor: u32, encryptors: map<u32, Encryptor>)

  /** What `EncryptionManager::new` establishes: the default id is present and
      every entry sits under its own id. */
  ghost predicate Valid(m: Manager) {
    && m.defaultEncryptor in m.encryptors
    && forall k :: k in m.encryptors ==> m.encryptors[k].Id() == k
  }

  /** `EncryptionManager::new`; it asserts that the list is not empty. */
  function NewManager(es: seq<Encryptor>): (m: Manager)
    requires |es| > 0
    ensures Valid(m)
    ensures m.defaultEncryptor == es[0].Id()
    ensures m.encryptors.Keys == set i | 0 <= i < |es| :: es[i].Id()
  {
    Manager(es[0].Id(), IndexById(es, (e: Encryptor) => e.Id()))
  }

  function DeriveKey(c: Crypto, password: seq<byte>, salt: seq<byte>, keySize: nat): (r: Result<seq<byte>, CryptoError>)
    ensures WellBehaved(c) && r.Ok? ==> |r.value| == keySize
    ensures c.argon2(password, salt, keySize).None? <==> r == Err(KeyDerivation)
    ensures c.argon2(password, salt, keySize).Some? ==> r == Ok(c.argon2(password, salt, keySize).value)
  {
    match c.argon2(password, salt, keySize)
    case None => Err(KeyDerivation)
    case Some(key) => Ok(key)
  }

  /** `EncryptionManager::encrypt`, with the default encryptor's random nonce as input. */
  function Encrypt(c: Crypto, m: Manager, data: seq<byte>, password: seq<byte>, salt: seq<byte>, nonce: seq<byte>)
    : (r: Result<seq<byte>, CryptoError>)
    requires Valid(m)
    requires |nonce| == AES_NONCE_SIZE
    ensures r.Ok? ==>
      var enc := m.encryptors[m.defaultEncryptor];
      var key := DeriveKey(c, password, salt, enc.KeySize());
      && |r.value| >= ENCRYPTOR_ID_SIZE
      && r.value[|r.value| - ENCRYPTOR_ID_SIZE..] == U32ToLe(m.defaultEncryptor)
      && key.Ok?
      && enc.Encrypt(c, data, key.value, nonce) == Ok(r.value[..|r.value| - ENCRYPTOR_ID_SIZE])
    ensures
      var enc := m.encryptors[m.defaultEncryptor];
      var key := DeriveKey(c, password, salt, enc.KeySize());
      && (key.Err? ==> r == Err(key.error))
      && (key.Ok? && enc.Encrypt(c, data, key.value, nonce).Err? ==> r == Err(enc.Encrypt(c, data, key.value, nonce).error))
      && (r.Ok? <==> key.Ok? && enc.Encrypt(c, data, key.value, nonce).Ok?)
  {
    var enc := m.encryptors[m.defaultEncryptor];
    var key :- DeriveKey(c, password, salt, enc.KeySize());
    var body :- enc.Encrypt(c, data, key, nonce);
    assert (body + U32ToLe(enc.Id()))[..|body|] == body;
    Ok(body + U32ToLe(enc.Id()))
  }

  /** `EncryptionManager::find_encryptor`: the encryptor named by the
      trailing four bytes, if there are four bytes and it is registered. */
  function FindEncryptor(m: Manager, data: seq<byte>): (r: Option<Encryptor>)
    requires Valid(m)
    ensures |data| < ENCRYPTOR_ID_SIZE ==> r == None
    ensures r.Some? ==> |data| >= ENCRYPTOR_ID_SIZE && U32FromLe(data[|data| - ENCRYPTOR_ID_SIZE..]) == r.value.Id()
    ensures |data| >= ENCRYPTOR_ID_SIZE ==>
      (r.Some? <==> U32FromLe(data[|data| - ENCRYPTOR_ID_SIZE..]) in m.encryptors)
  {
    if |data| < ENCRYPTOR_ID_SIZE then None
    else
      var id := U32FromLe(data[|data| - ENCRYPTOR_ID_SIZE..]);
      if id in m.encryptors then Some(m.encryptors[id]) else None
  }

  /** `EncryptionManager::decrypt`: strip exactly the four id bytes and let
      the encryptor they name decrypt the rest with a key of its own size. */
  function Decrypt(c: Crypto, m: Manager, data: seq<byte>, password: seq<byte>, salt: seq<byte>)
    : (r: Result<seq<byte>, CryptoError>)
    requires Valid(m)
    ensures r == Err(UnknownEncryptor) <==> FindEncryptor(m, data).None?
    ensures FindEncryptor(m, data).Some? ==>
      var enc := FindEncryptor(m, data).value;
      var key := DeriveKey(c, password, salt, enc.KeySize());
      r == (if key.Err? then Err(key.error) else enc.Decrypt(c, data[..|data| - ENCRYPTOR_ID_SIZE], key.value))
  {
    match FindEncryptor(m, data)
    case None => Err(UnknownEncryptor)
    case Some(enc) =>
      var key :- DeriveKey(c, password, salt, enc.KeySize());
      enc.Decrypt(c, data[..|data| - ENCRYPTOR_ID_SIZE], key)
  }

  /** When Argon2 and the cipher accept their inputs, the manager's
      encryption succeeds, and it decrypts back under the same password and salt. */
  lemma RoundTrip(c: Crypto, m: Manager, data: seq<byte>, password: seq<byte>, salt: seq<byte>, nonce: seq<byte>)
    requires WellBehaved(c) && Valid(m)
    requires |nonce| == AES_NONCE_SIZE
    requires c.argon2(password, salt, AES_KEY_SIZE).Some?
    requires c.seal(c.argon2(password, salt, AES_KEY_SIZE).value, nonce, data).Some?
    ensures Encrypt(c, m, data, password, salt, nonce).Ok?
    ensures Decrypt(c, m, Encrypt(c, m, data, password, salt, nonce).value, password, salt) == Ok(data)
  {
    var enc := m.encryptors[m.defaultEncryptor];
    var key := DeriveKey(c, password, salt, enc.KeySize()).value;
    assert Encrypt(c, m, data, password, salt, nonce).Ok?;
    var framed := Encrypt(c, m, data, password, salt, nonce).value;
    assert FindEncryptor(m, framed) == Some(enc);
    AesRoundTrip(c, data, key, nonce);
  }

  /** Data shorter than an id, or naming no registered encryptor, is refused. */
  lemma UnknownIdRefused(c: Crypto, m: Manager, data: seq<byte>, password: seq<byte>, salt: seq<byte>)
    requires Valid(m)
    requires |data| < ENCRYPTOR_ID_SIZE || U32FromLe(data[|data| - ENCRYPTOR_ID_SIZE..]) !in m.encryptors
    ensures Decrypt(c, m, data, password, salt) == Err(UnknownEncryptor)
  {
  }
}

=== FILE: errors.dfy ===
/**
 * The two error constructors of the server (src/error.rs). Their codes are
 * the wire contract the browser client branches on: -2 means the session
 * token is invalid or expired, -1 is a general error with a message for the
 * user.
 */
module Errors {
  import opened Wrappers
  import opened Json

  const GENERAL_ERROR := -1
  const INVALID_TOKEN_ERROR := -2

  /** The message of `invalid_token()`: "login has expired". */
  const INVALID_TOKEN_MESSAGE := "登录已过期"

  function InvalidToken(): (e: RpcError)
    ensures e.code == INVALID_TOKEN_ERROR && e.code < 0
    ensures e.message == INVALID_TOKEN_MESSAGE && |e.message| == 5
    ensures e.data == None
  {
    RpcError(INVALID_TOKEN_ERROR, INVALID_TOKEN_MESSAGE, None)
  }

  function Msg(m: string): (e: RpcError)
    ensures e.code == GENERAL_ERROR && e.code != InvalidToken().code
    ensures e.message == m
    ensures e.data == None
  {
    RpcError(GENERAL_ERROR, m, None)
  }

  /** A general error can never be mistaken for an invalid-token error, and
      two general errors are equal exactly when their messages are. */
  lemma MsgDistinguishable(m: string, m': string)
    ensures Msg(m) != InvalidToken()
    ensures Msg(m) == Msg(m') <==> m == m'
  {
  }
}

=== FILE: json.dfy ===
/**
 * JSON values as they cross the wire between the browser client and the
 * server, and the JSON-RPC 2.0 error object (section 5.1 of the JSON-RPC 2.0
 * specification) that both sides agree on.
 */
module Json {
  import opened Wrappers

  datatype Json =
    | JNull
    | JBool(b: bool)
    | JNum(n: int)
    | JStr(s: string)
    | JArr(items: seq<Json>)
    | JObj(fields: map<string, Json>)

  /** The `{code, message, data}` error object of a JSON-RPC 2.0 response. */
  datatype RpcError = RpcError(code: int, message: string, data: Option<Json>)
}

=== FILE: primitives.dfy ===
/**
 * The foreign cryptographic and encoding primitives the server calls, kept
 * abstract: SHA-256 (FIPS 180-4), base64url without padding (section 5 of
 * RFC 4648), Argon2 key derivation with its default parameters (RFC 9106)
 * and the AES-256-GCM authenticated cipher (NIST SP 800-38D).
 *
 * Each is a total function carried in a `Crypto` record; `WellBehaved`
 * collects the only facts the model relies on about them.
 */
module Primitives {
  import opened Wrappers
  import opened Bytes

  const DIGEST_SIZE := 32
  const AES_KEY_SIZE := 32
  const AES_NONCE_SIZE := 12
  const AES_TAG_SIZE := 16

  datatype Crypto = Crypto(
    sha256: seq<byte> -> seq<byte>,
    base64Encode: seq<byte> -> string,
    base64Decode: string -> Option<seq<byte>>,
    // password, salt, output length; None when Argon2 rejects the inputs
    argon2: (seq<byte>, seq<byte>, nat) -> Option<seq<byte>>,
    // key, nonce, plaintext -> ciphertext with tag
    seal: (seq<byte>, seq<byte>, seq<byte>) -> Option<seq<byte>>,
    // key, nonce, ciphertext with tag -> plaintext; None when authentication fails
    open: (seq<byte>, seq<byte>, seq<byte>) -> Option<seq<byte>>
  )

  /** The digest is 32 bytes; decoding undoes encoding; derived keys have the
      requested length; a sealed message is 16 tag bytes longer than the
      plaintext and opens to it under the same key and nonce. */
  ghost predicate WellBehaved(c: Crypto) {
    && (forall m :: |c.sha256(m)| == DIGEST_SIZE)
    && (forall b :: c.base64Decode(c.base64Encode(b)) == Some(b))
    && (forall pw, salt, n :: c.argon2(pw, salt, n).Some? ==> |c.argon2(pw, salt, n).value| == n)
    && (forall k, nonce, pt :: |k| == AES_KEY_SIZE && |nonce| == AES_NONCE_SIZE && c.seal(k, nonce, pt).Some? ==>
          |c.seal(k, nonce, pt).value| == |pt| + AES_TAG_SIZE
          && c.open(k, nonce, c.seal(k, nonce, pt).value) == Some(pt))
  }
}

=== FILE: query.dfy ===
/**
 * The SQL-building macros of src/query.rs as functions on strings. Each
 * builder returns the statement text and the values it binds, in bind order;
 * a statement is well-formed for the database driver when it has exactly one
 * `?` placeholder per bound value.
 */
module Query {
  import opened Wrappers

  /** A comparison operator as written in a macro call: a literal such as
      `"LIKE"` (kept as written, quotes included), or a token such as `=`. */
  datatype Op = LiteralOp(source: string) | TokenOp(source: string)

  /** `field op value` of a WHERE clause. */
  datatype Cond<V> = Cond(field: string, op: Op, value: V)

  /** `field: value` of a SET list or an insert. */
  datatype Assign<V> = Assign(field: string, value: V)

  datatype Statement<V> = Statement(sql: string, binds: seq<V>)

  /** A string literal: its source text opens and closes with a double quote. */
  predicate Quoted(source: string) {
    |source| >= 2 && source[0] == '"' && source[|source| - 1] == '"'
  }

  /** A character literal without an escape: one character between single quotes. */
  predicate CharLiteral(source: string) {
    |source| == 3 && source[0] == '\'' && source[2] == '\''
  }

  /** `stringify_op!`: a literal is spliced in by `concat!` as its value, so a
      string literal loses its double quotes and a character literal becomes
      its character; a boolean or plain decimal literal reads as written. Other
      numeric literals, which `concat!` renders by value, are kept as written
      here. A token is spelled out by `stringify!`. */
  function StringifyOp(op: Op): (r: string)
    ensures op.TokenOp? ==> r == op.source
    ensures op.LiteralOp? && Quoted(op.source) ==> "\"" + r + "\"" == op.source
    ensures op.LiteralOp? && CharLiteral(op.source) ==> "'" + r + "'" == op.source && |r| == 1
    ensures op.LiteralOp? && !Quoted(op.source) && !CharLiteral(op.source) ==> r == op.source
  {
    match op
    case LiteralOp(src) =>
      if Quoted(src) then
        assert src == [src[0]] + src[1..|src| - 1] + [src[|src| - 1]];
        src[1..|src| - 1]
      else if CharLiteral(src) then
        assert src == [src[0]] + [src[1]] + [src[2]];
        [src[1]]
      else src
    case TokenOp(t) => t
  }

  /** Every spelling of `stringify_op!` puts the operator's text into the
      statement unquoted: `"LIKE"` and a token spelled `LIKE` give the same
      SQL, and so do `'<'` and the token `<`. */
  lemma OpSpellingsAgree<V>(field: string, text: string, ch: char, value: V)
    ensures CondSql(Cond(field, LiteralOp("\"" + text + "\""), value)) == CondSql(Cond(field, TokenOp(text), value))
    ensures CondSql(Cond(field, LiteralOp("\"" + text + "\""), value)) == Concat(["`", field, "` ", text, " ?"])
    ensures CondSql(Cond(field, LiteralOp("'" + [ch] + "'"), value)) == CondSql(Cond(field, TokenOp([ch]), value))
  {
  }

  // ------------------------------------------------------------------- join

  /** `join!`, which folds from the left: the first two items are glued
      first and the result is joined with the rest. */
  function Join(sep: string, xs: seq<string>): (r: string)
    requires |xs| >= 1
    ensures r == Interleave(sep, xs)
    decreases |xs|
  {
    if |xs| == 1 then xs[0]
    else if |xs| == 2 then
      assert xs[1..] == [xs[1]];
      xs[0] + sep + xs[1]
    else
      InterleaveHead(sep, xs[0], xs[1], xs[2..]);
      assert [xs[1]] + xs[2..] == xs[1..];
      Join(sep, [xs[0] + sep + xs[1]] + xs[2..])
  }

  /** The items with `sep` between each neighbouring pair. */
  function Interleave(sep: string, xs: seq<string>): string
    requires |xs| >= 1
    decreases |xs|
  {
    if |xs| == 1 then xs[0] else xs[0] + sep + Interleave(sep, xs[1..])
  }

  lemma {:induction false} InterleaveHead(sep: string, x: string, y: string, rest: seq<string>)
    ensures Interleave(sep, [x + sep + y] + rest) == x + sep + Interleave(sep, [y] + rest)
    decreases |rest|
  {
    if |rest| > 0 {
      assert ([x + sep + y] + rest)[1..] == rest;
      assert ([y] + rest)[1..] == rest;
    }
  }

  /** How often `ch` occurs in `s`. */
  function Count(ch: char, s: string): nat
    decreases |s|
  {
    if |s| == 0 then 0 else (if s[0] == ch then 1 else 0) + Count(ch, s[1..])
  }

  lemma {:induction false} CountConcat(ch: char, a: string, b: string)
    ensures Count(ch, a + b) == Count(ch, a) + Count(ch, b)
    decreases |a|
  {
    if |a| == 0 {
      assert a + b == b;
    } else {
      assert (a + b)[0] == a[0];
      assert (a + b)[1..] == a[1..] + b;
      CountConcat(ch, a[1..], b);
    }
  }

  lemma {:induction false} CountAbsent(ch: char, s: string)
    ensures Count(ch, s) == 0 <==> ch !in s
    decreases |s|
  {
    if |s| > 0 {
      CountAbsent(ch, s[1..]);
      assert s == [s[0]] + s[1..];
    }
  }

  function CountAll(ch: char, xs: seq<string>): nat
    decreases |xs|
  {
    if |xs| == 0 then 0 else Count(ch, xs[0]) + CountAll(ch, xs[1..])
  }

  /** `concat!`: the pieces glued in order. */
  function Concat(pieces: seq<string>): string
    decreases |pieces|
  {
    if |pieces| == 0 then "" else pieces[0] + Concat(pieces[1..])
  }

  lemma {:induction false} CountConcatAll(ch: char, pieces: seq<string>)
    ensures Count(ch, Concat(pieces)) == CountAll(ch, pieces)
    decreases |pieces|
  {
    if |pieces| > 0 {
      CountConcat(ch, pieces[0], Concat(pieces[1..]));
      CountConcatAll(ch, pieces[1..]);
    }
  }

  lemma {:induction false} CountAllNone(ch: char, pieces: seq<string>)
    requires forall i :: 0 <= i < |pieces| ==> ch !in pieces[i]
    ensures CountAll(ch, pieces) == 0
    decreases |pieces|
  {
    if |pieces| > 0 {
      CountAbsent(ch, pieces[0]);
      CountAllNone(ch, pieces[1..]);
    }
  }

  /** Only piece `k` contributes. */
  lemma {:induction false} CountAllOne(ch: char, pieces: seq<string>, k: nat)
    requires k < |pieces|
    requires forall i :: 0 <= i < |pieces| && i != k ==> ch !in pieces[i]
    ensures CountAll(ch, pieces) == Count(ch, pieces[k])
    decreases |pieces|
  {
    if k == 0 {
      CountAllNone(ch, pieces[1..]);
    } else {
      CountAbsent(ch, pieces[0]);
      CountAllOne(ch, pieces[1..], k - 1);
    }
  }

  /** Only pieces `j` and `k` contribute. */
  lemma {:induction false} CountAllTwo(ch: char, pieces: seq<string>, j: nat, k: nat)
    requires j < k < |pieces|
    requires forall i :: 0 <= i < |pieces| && i != j && i != k ==> ch !in pieces[i]
    ensures CountAll(ch, pieces) == Count(ch, pieces[j]) + Count(ch, pieces[k])
    decreases |pieces|
  {
    if j == 0 {
      CountAllOne(ch, pieces[1..], k - 1);
    } else {
      CountAbsent(ch, pieces[0]);
      CountAllTwo(ch, pieces[1..], j - 1, k - 1);
    }
  }

  lemma ConcatPair(a: string, b: string)
    ensures Concat([a, b]) == a + b
  {
    assert [a, b][1..] == [b];
    assert [b][1..] == [];
    assert Concat([b]) == b + Concat([]);
    assert b + "" == b;
    assert Concat([a, b]) == a + Concat([b]);
  }

  /** Glued pieces start with the first two pieces. */
  lemma ConcatPrefix(pieces: seq<string>)
    requires |pieces| >= 2
    ensures |Concat(pieces)| >= |pieces[0]| + |pieces[1]|
    ensures Concat(pieces)[..|pieces[0]| + |pieces[1]|] == pieces[0] + pieces[1]
  {
    assert Concat(pieces) == pieces[0] + Concat(pieces[1..]);
    assert Concat(pieces[1..]) == pieces[1] + Concat(pieces[1..][1..]);
    assert Concat(pieces) == pieces[0] + pieces[1] + Concat(pieces[1..][1..]);
  }

  /** Concat of a fixed list of pieces is their left-to-right `+`. */
  lemma ConcatUnfold4(a: string, b: string, c: string, d: string)
    ensures Concat([a, b, c, d]) == a + b + c + d
  {
    assert [a, b, c, d][1..] == [b, c, d];
    ConcatTriple(b, c, d);
  }

  lemma ConcatUnfold6(a: string, b: string, c: string, d: string, e: string, f: string)
    ensures Concat([a, b, c, d, e, f]) == a + b + c + d + e + f
  {
    assert [a, b, c, d, e, f][1..] == [b, c, d, e, f];
    assert [b, c, d, e, f][1..] == [c, d, e, f];
    ConcatUnfold4(c, d, e, f);
  }

  lemma ConcatUnfold8(a: string, b: string, c: string, d: string, e: string, f: string, g: string, h: string)
    ensures Concat([a, b, c, d, e, f, g, h]) == a + b + c + d + e + f + g + h
  {
    assert [a, b, c, d, e, f, g, h][1..] == [b, c, d, e, f, g, h];
    assert [b, c, d, e, f, g, h][1..] == [c, d, e, f, g, h];
    ConcatUnfold6(c, d, e, f, g, h);
  }

  lemma ConcatTriple(a: string, b: string, c: string)
    ensures Concat([a, b, c]) == a + b + c
  {
    assert [a, b, c][1..] == [b, c];
    ConcatPair(b, c);
  }

  /** The marks in glued pieces when only piece `k` may hold any. */
  lemma CountPiecesOne(ch: char, pieces: seq<string>, k: nat)
    requires k < |pieces|
    requires forall i :: 0 <= i < |pieces| && i != k ==> ch !in pieces[i]
    ensures Count(ch, Concat(pieces)) == Count(ch, pieces[k])
  {
    CountConcatAll(ch, pieces);
    CountAllOne(ch, pieces, k);
  }

  /** Joining n items inserts n - 1 separators and nothing else. */
  lemma {:induction false} JoinCount(ch: char, sep: string, xs: seq<string>)
    requires |xs| >= 1
    ensures Count(ch, Join(sep, xs)) == CountAll(ch, xs) + (|xs| - 1) * Count(ch, sep)
    decreases |xs|
  {
    InterleaveCount(ch, sep, xs);
  }

  lemma {:induction false} InterleaveCount(ch: char, sep: string, xs: seq<string>)
    requires |xs| >= 1
    ensures Count(ch, Interleave(sep, xs)) == CountAll(ch, xs) + (|xs| - 1) * Count(ch, sep)
    decreases |xs|
  {
    if |xs| == 1 {
      assert CountAll(ch, xs[1..]) == 0;
    } else {
      InterleaveCount(ch, sep, xs[1..]);
      CountConcat(ch, xs[0] + sep, Interleave(sep, xs[1..]));
      CountConcat(ch, xs[0], sep);
    }
  }

  // ------------------------------------------------------------ clause parts

  function Backticked(name: string): string {
    Concat(["`", name, "`"])
  }

  /** "`field` op ?" */
  function CondSql<V>(c: Cond<V>): string {
    Concat(["`", c.field, "` ", StringifyOp(c.op), " ?"])
  }

  /** "`field`=?" */
  function AssignSql<V>(a: Assign<V>): string {
    Concat(["`", a.field, "`=?"])
  }

  function CondItems<V>(cs: seq<Cond<V>>): (r: seq<string>)
    ensures |r| == |cs| && forall i :: 0 <= i < |cs| ==> r[i] == CondSql(cs[i])
  {
    if |cs| == 0 then [] else [CondSql(cs[0])] + CondItems(cs[1..])
  }

  /** The bound values of a list of conditions or assignments, in order. */
  function Values<T, V>(xs: seq<T>, value: T -> V): (r: seq<V>)
    ensures |r| == |xs| && forall i :: 0 <= i < |xs| ==> r[i] == value(xs[i])
  {
    if |xs| == 0 then [] else [value(xs[0])] + Values(xs[1..], value)
  }

  function CondValues<V>(cs: seq<Cond<V>>): seq<V> {
    Values(cs, (c: Cond<V>) => c.value)
  }

  function AssignItems<V>(as_: seq<Assign<V>>): (r: seq<string>)
    ensures |r| == |as_| && forall i :: 0 <= i < |as_| ==> r[i] == AssignSql(as_[i])
  {
    if |as_| == 0 then [] else [AssignSql(as_[0])] + AssignItems(as_[1..])
  }

  function AssignFields<V>(as_: seq<Assign<V>>): (r: seq<string>)
    ensures |r| == |as_| && forall i :: 0 <= i < |as_| ==> r[i] == Backticked(as_[i].field)
  {
    if |as_| == 0 then [] else [Backticked(as_[0].field)] + AssignFields(as_[1..])
  }

  function AssignValues<V>(as_: seq<Assign<V>>): seq<V> {
    Values(as_, (a: Assign<V>) => a.value)
  }

  function BacktickedAll(names: seq<string>): (r: seq<string>)
    ensures |r| == |names| && forall i :: 0 <= i < |names| ==> r[i] == Backticked(names[i])
  {
    if |names| == 0 then [] else [Backticked(names[0])] + BacktickedAll(names[1..])
  }

  function Where<V>(cs: seq<Cond<V>>): string
    requires |cs| >= 1
  {
    Join(" AND ", CondItems(cs))
  }

  // --------------------------------------------------------------- builders

  /** `delete!` */
  function Delete<V>(table: string, cs: seq<Cond<V>>): (r: Statement<V>)
    requires |cs| >= 1
    ensures r.sql == "DELETE FROM `" + table + "` WHERE " + Interleave(" AND ", CondItems(cs))
    ensures r.binds == CondValues(cs)
  {
    ConcatUnfold4("DELETE FROM `", table, "` WHERE ", Where(cs));
    Statement(Concat(["DELETE FROM `", table, "` WHERE ", Where(cs)]), CondValues(cs))
  }

  /** `update!`: SET values are bound before WHERE values. */
  function Update<V>(table: string, sets: seq<Assign<V>>, cs: seq<Cond<V>>): (r: Statement<V>)
    requires |sets| >= 1 && |cs| >= 1
    ensures r.sql == "UPDATE `" + table + "` SET " + Interleave(", ", AssignItems(sets))
                     + " WHERE " + Interleave(" AND ", CondItems(cs))
    ensures |r.binds| == |sets| + |cs|
    ensures forall i :: 0 <= i < |sets| ==> r.binds[i] == sets[i].value
    ensures forall i :: 0 <= i < |cs| ==> r.binds[|sets| + i] == cs[i].value
  {
    ConcatUnfold6("UPDATE `", table, "` SET ", Join(", ", AssignItems(sets)), " WHERE ", Where(cs));
    Statement(Concat(["UPDATE `", table, "` SET ", Join(", ", AssignItems(sets)), " WHERE ", Where(cs)]),
              AssignValues(sets) + CondValues(cs))
  }

  /** `insert!(@placeholder ..)`: one "?" per field, comma separated. */
  function Placeholders(n: nat): (r: string)
    requires n >= 1
    ensures |r| == 2 * n - 1
    ensures forall i :: 0 <= i < |r| ==> r[i] == if i % 2 == 0 then '?' else ','
  {
    if n == 1 then "?"
    else
      var rest := Placeholders(n - 1);
      ConcatPair("?,", rest);
      assert forall i :: 2 <= i < 2 * n - 1 ==> ("?," + rest)[i] == rest[i - 2];
      Concat(["?,", rest])
  }

  function Repeat(s: string, n: nat): (r: seq<string>)
    ensures |r| == n && forall i :: 0 <= i < n ==> r[i] == s
  {
    if n == 0 then [] else [s] + Repeat(s, n - 1)
  }

  /** The placeholder list is n question marks joined by commas. */
  lemma {:induction false} PlaceholdersAreJoined(n: nat)
    requires n >= 1
    ensures Placeholders(n) == Join(",", Repeat("?", n))
    ensures Count('?', Placeholders(n)) == n
    decreases n
  {
    if n > 1 {
      PlaceholdersAreJoined(n - 1);
      assert Repeat("?", n)[1..] == Repeat("?", n - 1);
      ConcatPair("?,", Placeholders(n - 1));
      CountConcat('?', "?,", Placeholders(n - 1));
      assert "?,"[1..] == ",";
      assert Count('?', "?,") == 1;
    }
  }

  function InsertWith<V>(verb: string, table: string, as_: seq<Assign<V>>): (r: Statement<V>)
    requires |as_| >= 1
    ensures r.sql == verb + " `" + table + "`(" + Interleave(",", AssignFields(as_))
                     + ") VALUES (" + Placeholders(|as_|) + ")"
    ensures |r.sql| >= |verb| + 2 && r.sql[..|verb| + 2] == verb + " `"
    ensures r.binds == AssignValues(as_)
  {
    ConcatUnfold8(verb, " `", table, "`(", Join(",", AssignFields(as_)), ") VALUES (", Placeholders(|as_|), ")");
    ConcatPrefix([verb, " `", table, "`(", Join(",", AssignFields(as_)), ") VALUES (", Placeholders(|as_|), ")"]);
    Statement(Concat([verb, " `", table, "`(", Join(",", AssignFields(as_)), ") VALUES (", Placeholders(|as_|), ")"]),
              AssignValues(as_))
  }

  /** `insert!` */
  function Insert<V>(table: string, as_: seq<Assign<V>>): (r: Statement<V>)
    requires |as_| >= 1
    ensures r.binds == AssignValues(as_)
    ensures |r.sql| >= 13 && r.sql[..13] == "INSERT INTO `"
  {
    InsertWith("INSERT INTO", table, as_)
  }

  /** `insert_ignore!` */
  function InsertIgnore<V>(table: string, as_: seq<Assign<V>>): (r: Statement<V>)
    requires |as_| >= 1
    ensures r.binds == AssignValues(as_)
    ensures |r.sql| >= 23 && r.sql[..23] == "INSERT OR IGNORE INTO `"
  {
    InsertWith("INSERT OR IGNORE INTO", table, as_)
  }

  /** `select!(@field ..)`: `*` for no fields. */
  function FieldList(fields: seq<string>): (r: string)
    ensures |fields| == 0 ==> r == "*"
    ensures |fields| > 0 ==> r == Interleave(",", BacktickedAll(fields))
  {
    if |fields| == 0 then "*" else Join(",", BacktickedAll(fields))
  }

  /** `select!`, with the optional trailing clause such as "ORDER BY ..". */
  function Select<V>(table: string, fields: seq<string>, cs: seq<Cond<V>>, clause: Option<string>): (r: Statement<V>)
    requires |cs| >= 1
    ensures r.sql == "SELECT " + FieldList(fields) + " FROM `" + table + "` WHERE "
                     + Interleave(" AND ", CondItems(cs)) + (if clause.Some? then " " + clause.value else "")
    ensures r.binds == CondValues(cs)
  {
    ConcatUnfold6("SELECT ", FieldList(fields), " FROM `", table, "` WHERE ", Where(cs));
    var base := Concat(["SELECT ", FieldList(fields), " FROM `", table, "` WHERE ", Where(cs)]);
    match clause
    case None => Statement(base, CondValues(cs))
    case Some(c) =>
      ConcatTriple(base, " ", c);
      Statement(Concat([base, " ", c]), CondValues(cs))
  }

  // -------------------------------------------------------------- properties

  /** Names, operators and clauses that contain no `?` of their own. */
  predicate NoMark(s: string) {
    '?' !in s
  }

  predicate CondsUnmarked<V>(cs: seq<Cond<V>>) {
    forall i :: 0 <= i < |cs| ==> NoMark(cs[i].field) && NoMark(StringifyOp(cs[i].op))
  }

  predicate AssignsUnmarked<V>(as_: seq<Assign<V>>) {
    forall i :: 0 <= i < |as_| ==> NoMark(as_[i].field)
  }

  lemma CountOneMark()
    ensures Count('?', " ?") == 1 && Count('?', "`=?") == 1
  {
    assert " ?"[1..] == "?";
    assert "`=?"[1..] == "=?";
    assert "=?"[1..] == "?";
    assert "?"[1..] == "";
  }

  lemma CondSqlCount<V>(c: Cond<V>)
    requires NoMark(c.field) && NoMark(StringifyOp(c.op))
    ensures Count('?', CondSql(c)) == 1
  {
    var pieces := ["`", c.field, "` ", StringifyOp(c.op), " ?"];
    CountConcatAll('?', pieces);
    CountAllOne('?', pieces, 4);
    CountOneMark();
  }

  lemma AssignSqlCount<V>(a: Assign<V>)
    requires NoMark(a.field)
    ensures Count('?', AssignSql(a)) == 1
    ensures Count('?', Backticked(a.field)) == 0
  {
    CountConcatAll('?', ["`", a.field, "`=?"]);
    CountAllOne('?', ["`", a.field, "`=?"], 2);
    CountOneMark();
    CountConcatAll('?', ["`", a.field, "`"]);
    CountAllNone('?', ["`", a.field, "`"]);
  }

  lemma {:induction false} CondItemsCount<V>(cs: seq<Cond<V>>)
    requires CondsUnmarked(cs)
    ensures CountAll('?', CondItems(cs)) == |cs|
    decreases |cs|
  {
    if |cs| > 0 {
      CondSqlCount(cs[0]);
      assert CondItems(cs)[1..] == CondItems(cs[1..]);
      CondItemsCount(cs[1..]);
    }
  }

  lemma {:induction false} AssignItemsCount<V>(as_: seq<Assign<V>>)
    requires AssignsUnmarked(as_)
    ensures CountAll('?', AssignItems(as_)) == |as_|
    ensures CountAll('?', AssignFields(as_)) == 0
    decreases |as_|
  {
    if |as_| > 0 {
      AssignSqlCount(as_[0]);
      assert AssignItems(as_)[1..] == AssignItems(as_[1..]);
      assert AssignFields(as_)[1..] == AssignFields(as_[1..]);
      AssignItemsCount(as_[1..]);
    }
  }

  lemma WhereCount<V>(cs: seq<Cond<V>>)
    requires |cs| >= 1 && CondsUnmarked(cs)
    ensures Count('?', Where(cs)) == |cs|
  {
    JoinCount('?', " AND ", CondItems(cs));
    CondItemsCount(cs);
    CountAbsent('?', " AND ");
  }

  lemma CountAfter(a: string, b: string, c: string, w: string)
    requires NoMark(a) && NoMark(b) && NoMark(c)
    ensures Count('?', Concat([a, b, c, w])) == Count('?', w)
  {
    CountPiecesOne('?', [a, b, c, w], 3);
  }

  /** `delete!` has one placeholder per bound value. */
  lemma DeletePlaceholders<V>(table: string, cs: seq<Cond<V>>)
    requires |cs| >= 1 && NoMark(table) && CondsUnmarked(cs)
    ensures Count('?', Delete(table, cs).sql) == |Delete(table, cs).binds| == |cs|
  {
    WhereCount(cs);
    CountAfter("DELETE FROM `", table, "` WHERE ", Where(cs));
  }

  lemma UpdateShapeCount(table: string, setList: string, w: string)
    requires NoMark(table)
    ensures Count('?', Concat(["UPDATE `", table, "` SET ", setList, " WHERE ", w]))
         == Count('?', setList) + Count('?', w)
  {
    var pieces := ["UPDATE `", table, "` SET ", setList, " WHERE ", w];
    CountConcatAll('?', pieces);
    CountAllTwo('?', pieces, 3, 5);
  }

  /** `update!` has one placeholder per bound value. */
  lemma UpdatePlaceholders<V>(table: string, sets: seq<Assign<V>>, cs: seq<Cond<V>>)
    requires |sets| >= 1 && |cs| >= 1 && NoMark(table) && AssignsUnmarked(sets) && CondsUnmarked(cs)
    ensures Count('?', Update(table, sets, cs).sql) == |Update(table, sets, cs).binds|
  {
    UpdateShapeCount(table, Join(", ", AssignItems(sets)), Where(cs));
    WhereCount(cs);
    AssignItemsCount(sets);
    JoinCount('?', ", ", AssignItems(sets));
    CountAbsent('?', ", ");
  }

  lemma InsertWithPlaceholders<V>(verb: string, table: string, as_: seq<Assign<V>>)
    requires |as_| >= 1 && NoMark(verb) && NoMark(table) && AssignsUnmarked(as_)
    ensures Count('?', InsertWith(verb, table, as_).sql) == |InsertWith(verb, table, as_).binds|
  {
    var cols := Join(",", AssignFields(as_));
    AssignItemsCount(as_);
    JoinCount('?', ",", AssignFields(as_));
    CountAbsent('?', ",");
    CountAbsent('?', cols);
    InsertShapeCount(verb, table, cols, Placeholders(|as_|));
    PlaceholdersAreJoined(|as_|);
  }

  lemma InsertShapeCount(verb: string, table: string, cols: string, marks: string)
    requires NoMark(verb) && NoMark(table) && NoMark(cols)
    ensures Count('?', Concat([verb, " `", table, "`(", cols, ") VALUES (", marks, ")"])) == Count('?', marks)
  {
    CountPiecesOne('?', [verb, " `", table, "`(", cols, ") VALUES (", marks, ")"], 6);
  }

  /** `insert!` has one placeholder per bound value. */
  lemma InsertPlaceholders<V>(table: string, as_: seq<Assign<V>>)
    requires |as_| >= 1 && NoMark(table) && AssignsUnmarked(as_)
    ensures Count('?', Insert(table, as_).sql) == |Insert(table, as_).binds| == |as_|
  {
    InsertWithPlaceholders("INSERT INTO", table, as_);
  }

  /** `insert_ignore!` is `insert!` with another verb, and as well-formed. */
  lemma InsertIgnoreIsInsert<V>(table: string, as_: seq<Assign<V>>)
    requires |as_| >= 1
    ensures InsertIgnore(table, as_).binds == Insert(table, as_).binds
    ensures exists rest :: InsertIgnore(table, as_).sql == Concat(["INSERT OR IGNORE INTO", rest])
                        && Insert(table, as_).sql == Concat(["INSERT INTO", rest])
    ensures NoMark(table) && AssignsUnmarked(as_) ==>
      Count('?', InsertIgnore(table, as_).sql) == |InsertIgnore(table, as_).binds|
  {
    var rest := Concat([" `", table, "`(", Join(",", AssignFields(as_)), ") VALUES (", Placeholders(|as_|), ")"]);
    ConcatHead("INSERT OR IGNORE INTO", [" `", table, "`(", Join(",", AssignFields(as_)), ") VALUES (", Placeholders(|as_|), ")"]);
    ConcatHead("INSERT INTO", [" `", table, "`(", Join(",", AssignFields(as_)), ") VALUES (", Placeholders(|as_|), ")"]);
    if NoMark(table) && AssignsUnmarked(as_) {
      InsertWithPlaceholders("INSERT OR IGNORE INTO", table, as_);
    }
  }

  lemma ConcatHead(first: string, rest: seq<string>)
    ensures Concat([first] + rest) == Concat([first, Concat(rest)])
  {
    assert ([first] + rest)[0] == first;
    assert ([first] + rest)[1..] == rest;
    ConcatPair(first, Concat(rest));
  }

  lemma SelectShapeCount(fieldList: string, table: string, w: string)
    requires NoMark(fieldList) && NoMark(table)
    ensures Count('?', Concat(["SELECT ", fieldList, " FROM `", table, "` WHERE ", w])) == Count('?', w)
  {
    CountPiecesOne('?', ["SELECT ", fieldList, " FROM `", table, "` WHERE ", w], 5);
  }

  lemma ClauseCount(base: string, clause: string)
    requires NoMark(clause)
    ensures Count('?', Concat([base, " ", clause])) == Count('?', base)
  {
    CountPiecesOne('?', [base, " ", clause], 0);
  }

  /** `select!` has one placeholder per bound value. */
  lemma SelectPlaceholders<V>(table: string, fields: seq<string>, cs: seq<Cond<V>>, clause: Option<string>)
    requires |cs| >= 1 && NoMark(table) && CondsUnmarked(cs)
    requires forall i :: 0 <= i < |fields| ==> NoMark(fields[i])
    requires clause.Some? ==> NoMark(clause.value)
    ensures Count('?', Select(table, fields, cs, clause).sql) == |Select(table, fields, cs, clause).binds|
  {
    WhereCount(cs);
    FieldListUnmarked(fields);
    SelectShapeCount(FieldList(fields), table, Where(cs));
    if clause.Some? {
      ClauseCount(Concat(["SELECT ", FieldList(fields), " FROM `", table, "` WHERE ", Where(cs)]), clause.value);
    }
  }

  lemma FieldListUnmarked(fields: seq<string>)
    requires forall i :: 0 <= i < |fields| ==> NoMark(fields[i])
    ensures NoMark(FieldList(fields))
  {
    if |fields| > 0 {
      var ds := BacktickedAll(fields);
      forall i | 0 <= i < |fields|
        ensures NoMark(ds[i])
      {
        CountConcatAll('?', ["`", fields[i], "`"]);
        CountAllNone('?', ["`", fields[i], "`"]);
        CountAbsent('?', ds[i]);
      }
      CountAllNone('?', ds);
      JoinCount('?', ",", ds);
      CountAbsent('?', ",");
      CountAbsent('?', Join(",", ds));
    }
  }

  /** A `select!` clause follows the WHERE list after a single space. */
  lemma SelectShape<V>(table: string, fields: seq<string>, cs: seq<Cond<V>>, clause: Option<string>)
    requires |cs| >= 1
    ensures clause.None? ==>
      Select(table, fields, cs, clause).sql == Concat(["SELECT ", FieldList(fields), " FROM `", table, "` WHERE ", Where(cs)])
    ensures clause.Some? ==>
      Select(table, fields, cs, clause).sql
      == Concat(["SELECT ", FieldList(fields), " FROM `", table, "` WHERE ", Where(cs)]) + " " + clause.value
  {
    if clause.Some? {
      ConcatTriple(Concat(["SELECT ", FieldList(fields), " FROM `", table, "` WHERE ", Where(cs)]), " ", clause.value);
    }
  }
}

=== FILE: router.dfy ===
/**
 * The page routes of the browser client and the navigation guard
 * (html/src/router/index.js) that sends visitors without a session to the
 * login page.
 */
module Router {
  import opened Wrappers
  import Client
  import opened Json

  datatype Route = Route(path: string, name: string)

  const LOGIN := "login"
  const CREATE_USER := "create_user"

  /** The route table, in declaration order. */
  const ROUTES: seq<Route> := [
    Route("/", "list_password"),
    Route("/login", LOGIN),
    Route("/user/create", CREATE_USER),
    Route("/user/change_password", "change_user_password"),
    Route("/password/create", "create_password"),
    Route("/password/edit/:id", "edit_password")
  ]

  /** The path registered under `name`, if any. */
  function PathOf(name: string): (p: Option<string>)
    ensures p.Some? <==> exists i :: 0 <= i < |ROUTES| && ROUTES[i].name == name
    ensures forall i :: 0 <= i < |ROUTES| && ROUTES[i].name == name ==> p == Some(ROUTES[i].path)
  {
    FirstPath(ROUTES, name)
  }

  function FirstPath(routes: seq<Route>, name: string): (p: Option<string>)
    ensures p.Some? <==> exists i :: 0 <= i < |routes| && routes[i].name == name
    ensures p.Some? ==> exists i :: 0 <= i < |routes| && routes[i].name == name && routes[i].path == p.value
  {
    if |routes| == 0 then None
    else if routes[0].name == name then Some(routes[0].path)
    else FirstPath(routes[1..], name)
  }

  /** No two routes share a name or a path, so a name identifies one page. */
  lemma RouteTableIsInjective()
    ensures |ROUTES| == 6
    ensures forall i, j :: 0 <= i < j < |ROUTES| ==> ROUTES[i].name != ROUTES[j].name
    ensures forall i, j :: 0 <= i < j < |ROUTES| ==> ROUTES[i].path != ROUTES[j].path
    ensures PathOf(LOGIN) == Some("/login") && PathOf(CREATE_USER) == Some("/user/create")
  {
    assert ROUTES[1].name == LOGIN && ROUTES[2].name == CREATE_USER;
  }

  /** JavaScript truthiness of the held token: null and "" are falsy. */
  predicate HasSession(token: Option<string>) {
    token.Some? && token.value != ""
  }

  /** `beforeEach`: the name of the route to redirect to, or None to let the
      navigation through. An unmatched target has no name. */
  function Guard(token: Option<string>, target: Option<string>): (redirect: Option<string>)
    ensures redirect.Some? ==> redirect.value == LOGIN
    ensures redirect.Some? <==>
      !HasSession(token) && target != Some(CREATE_USER) && target != Some(LOGIN)
  {
    if !HasSession(token) && target != Some(CREATE_USER) && target != Some(LOGIN) then Some(LOGIN)
    else None
  }

  /** The guard never loops: the page it redirects to is itself admitted,
      with or without a session. */
  lemma GuardRedirectIsAdmitted(token: Option<string>, target: Option<string>)
    ensures Guard(token, target).Some? ==> Guard(token, Guard(token, target)).None?
    ensures Guard(token, Some(LOGIN)).None? && Guard(token, Some(CREATE_USER)).None?
  {
  }

  /** Holding a non-empty token admits every navigation. */
  lemma SessionAdmitsAll(t: string, target: Option<string>)
    requires t != ""
    ensures Guard(Some(t), target).None?
  {
  }

  /** After the server rejected the token, the client drops it, and the next
      navigation to any page other than login or user creation goes to login. */
  lemma InvalidTokenForcesLogin(s: Client.State, methodName: string, params: map<string, Json>,
                                e: RpcError, target: string)
    requires e.code == Client.INVALID_TOKEN_CODE
    requires target != LOGIN && target != CREATE_USER
    ensures Guard(Client.GetToken(Client.Rpc(s, methodName, params, Client.Failure(e)).state), Some(target))
         == Some(LOGIN)
  {
  }
}

=== FILE: server.dfy ===
/**
 * HTTP request dispatch of the server (src/main.rs): POST /rpc goes to the
 * JSON-RPC registry; in release builds every GET serves an embedded asset;
 * everything else is 404. The registry's answer and the embedded asset
 * table are inputs.
 */
module Server {
  import opened Wrappers
  import opened Json
  import opened Bytes

  /** The name of a request method other than GET and POST (HEAD, PUT, ...). */
  type OtherMethodName = name: string | name != "GET" && name != "POST" witness "PUT"

  /** A request method: GET and POST have their own constructors, so every
      method has exactly one representation. */
  datatype HttpMethod = Get | Post | OtherMethod(name: OtherMethodName)

  /** `debug_assertions` on or off. */
  datatype Build = Debug | Release

  datatype Handler = RpcHandler | StaticHandler(path: string) | NotFoundHandler

  datatype Response = Response(status: nat, contentType: Option<string>, body: seq<byte>)

  /** An embedded file of html/dist/ and its MIME type. */
  datatype Asset = Asset(data: seq<byte>, mimeType: string)

  const OK := 200
  const NOT_FOUND := 404
  const JSON_CONTENT_TYPE := "application/json"
  const INDEX := "index.html"

  /** The `match (req.method(), req.uri().path())` of `run`. */
  function Dispatch(build: Build, m: HttpMethod, path: string): (h: Handler)
    ensures h == RpcHandler <==> m == Post && path == "/rpc"
    ensures h.StaticHandler? <==> build == Release && m == Get && !(m == Post && path == "/rpc")
    ensures h.StaticHandler? ==> h.path == path
    ensures build == Debug ==> (h == NotFoundHandler <==> !(m == Post && path == "/rpc"))
  {
    if m == Post && path == "/rpc" then RpcHandler
    else if build == Release && m == Get then StaticHandler(path)
    else NotFoundHandler
  }

  /** `not_found()`: the default response with its status set to 404. */
  function NotFound(): (r: Response)
    ensures r == DefaultResponse().(status := NOT_FOUND)
    ensures r.status != DefaultResponse().status && r.body == [] && r.contentType.None?
  {
    Response(NOT_FOUND, None, [])
  }

  /** `Response::default()`: an empty 200 without headers. */
  function DefaultResponse(): Response {
    Response(OK, None, [])
  }

  /** `str::trim_start_matches('/')` */
  function TrimLeadingSlashes(path: string): (r: string)
    ensures |r| <= |path| && r == path[|path| - |r|..]
    ensures forall i :: 0 <= i < |path| - |r| ==> path[i] == '/'
    ensures |r| == 0 || r[0] != '/'
    decreases |path|
  {
    if |path| > 0 && path[0] == '/' then TrimLeadingSlashes(path[1..]) else path
  }

  /** The asset name `handle_static` looks up. */
  function AssetName(path: string): (name: string)
    ensures name != [] && name[0] != '/'
    ensures TrimLeadingSlashes(path) == [] ==> name == INDEX
    ensures TrimLeadingSlashes(path) != [] ==> name == TrimLeadingSlashes(path)
  {
    var p := TrimLeadingSlashes(path);
    if p == "" then INDEX else p
  }

  /** Leading slashes never change which asset is served. */
  lemma {:induction false} AssetNameIgnoresSlashes(path: string)
    ensures AssetName("/" + path) == AssetName(path)
    ensures AssetName(AssetName(path)) == AssetName(path)
  {
    assert ("/" + path)[1..] == path;
    var name := AssetName(path);
    assert TrimLeadingSlashes(name) == name;
  }

  /** `handle_static`. */
  function HandleStatic(assets: map<string, Asset>, path: string): (r: Response)
    ensures AssetName(path) in assets <==> r.status == OK
    ensures AssetName(path) in assets ==>
      r == Response(OK, Some(assets[AssetName(path)].mimeType), assets[AssetName(path)].data)
    ensures AssetName(path) !in assets ==> r == NotFound()
  {
    var name := AssetName(path);
    if name in assets then Response(OK, Some(assets[name].mimeType), assets[name].data) else NotFound()
  }

  /** `handle_rpc`, given the registry's answer to the body (None for a
      notification, which has no response) and the JSON serialiser. */
  function HandleRpc(reply: Option<Json>, serialize: Json -> seq<byte>): (r: Response)
    ensures r.status == OK
    ensures reply.None? <==> r.contentType.None?
    ensures reply.Some? ==> r.contentType == Some(JSON_CONTENT_TYPE) && r.body == serialize(reply.value)
    ensures reply.None? ==> r == DefaultResponse()
  {
    match reply
    case None => DefaultResponse()
    case Some(v) => Response(OK, Some(JSON_CONTENT_TYPE), serialize(v))
  }

  /** One request through the service function of `run`. */
  function Serve(build: Build, m: HttpMethod, path: string, assets: map<string, Asset>,
                 reply: Option<Json>, serialize: Json -> seq<byte>): (r: Response)
    ensures m == Post && path == "/rpc" ==> r == HandleRpc(reply, serialize)
    ensures build == Debug && !(m == Post && path == "/rpc") ==> r == NotFound()
    ensures build == Release && m == Get ==> r == HandleStatic(assets, path)
    ensures m != Get && !(m == Post && path == "/rpc") ==> r == NotFound()
  {
    match Dispatch(build, m, path)
    case RpcHandler => HandleRpc(reply, serialize)
    case StaticHandler(p) => HandleStatic(assets, p)
    case NotFoundHandler => NotFound()
  }

  /** The RPC route answers the same in both builds, and only it carries the
      registry's JSON: a debug build answers every other request with an
      empty 404. */
  lemma RpcServedInEveryBuild(m: HttpMethod, path: string, assets: map<string, Asset>, reply: Option<Json>,
                              serialize: Json -> seq<byte>)
    ensures Serve(Debug, Post, "/rpc", assets, reply, serialize)
         == Serve(Release, Post, "/rpc", assets, reply, serialize)
         == HandleRpc(reply, serialize)
    ensures Serve(Debug, m, path, assets, reply, serialize).status == OK <==> m == Post && path == "/rpc"
  {
  }

  /** In a release build the site root serves index.html, however many
      slashes the path has. */
  lemma {:induction false} RootServesIndex(n: nat, assets: map<string, Asset>, reply: Option<Json>,
                                           serialize: Json -> seq<byte>)
    ensures Serve(Release, Get, Slashes(n), assets, reply, serialize) == HandleStatic(assets, INDEX)
  {
    SlashesTrim(n);
    assert AssetName(Slashes(n)) == INDEX;
    assert TrimLeadingSlashes(INDEX) == INDEX;
    assert AssetName(INDEX) == INDEX;
    assert Dispatch(Release, Get, Slashes(n)) == StaticHandler(Slashes(n));
  }

  function Slashes(n: nat): (s: string)
    ensures |s| == n && forall i :: 0 <= i < n ==> s[i] == '/'
  {
    if n == 0 then "" else "/" + Slashes(n - 1)
  }

  lemma {:induction false} SlashesTrim(n: nat)
    ensures TrimLeadingSlashes(Slashes(n)) == []
  {
    if n > 0 {
      assert Slashes(n)[1..] == Slashes(n - 1);
      SlashesTrim(n - 1);
    }
  }
}

=== FILE: users.dfy ===
/**
 * Users, credentials, session tokens and login throttling (src/user.rs).
 *
 * Database rows are inputs and database writes are outputs; the clock is the
 * `now` parameter and random bytes are parameters too. Errors raised with
 * `msg(..)` are the JSON-RPC errors of module `Errors`; errors propagated
 * with `?` from the cipher or the base64 decoder keep their own kind.
 */
module Users {
  import opened Wrappers
  import opened Bytes
  import opened Json
  import opened Primitives
  import opened Encryption
  import opened Errors

  const CREDENTIAL_SIZE := 64
  const HALF_SIZE := 32
  const MAX_LOGIN_ATTEMPT := 5
  const LOGIN_SUSPEND_DURATION := 300
  const TOKEN_IDLE_DURATION := 300

  /** Raw token: 64 random bytes, the 8-byte row id, the 32-byte digest. */
  const TOKEN_ID_OFFSET := 64
  const TOKEN_DIGEST_OFFSET := 72
  const TOKEN_SIZE := 104

  const WRONG_CREDENTIALS := "用户名或密码错误"   // "wrong username or password"
  const TRY_LATER := "请稍后再试"                 // "try again later"
  const BAD_ARGUMENTS := "参数错误"               // "bad arguments"
  const USER_EXISTS := "用户已存在"               // "user already exists"

  datatype Failure =
    | Api(error: RpcError)        // raised with `msg(..)` or `invalid_token()`
    | Cipher(cause: CryptoError)  // propagated from the encryption manager
    | BadBase64                   // the token is not base64url

  // -------------------------------------------------------------- credential

  /** 64 key bytes: a password half and a salt half. */
  datatype Credential = Credential(bytes: seq<byte>)

  datatype User = User(id: int, credential: Credential)

  /** `Credential::generate`, the 64 bytes coming from the system RNG. */
  function Generate(random: seq<byte>): (c: Credential)
    requires |random| == CREDENTIAL_SIZE
    ensures |c.bytes| == CREDENTIAL_SIZE
    ensures |Password(c)| == HALF_SIZE && |Salt(c)| == HALF_SIZE
  {
    Credential(random)
  }

  /** The first 32 bytes, the key-derivation password of a token. */
  function Password(c: Credential): (p: seq<byte>)
    requires |c.bytes| >= HALF_SIZE
    ensures |p| == HALF_SIZE && p <= c.bytes
  {
    c.bytes[..HALF_SIZE]
  }

  /** The rest after the password half; together they are the whole credential. */
  function Salt(c: Credential): (s: seq<byte>)
    requires |c.bytes| >= HALF_SIZE
    ensures |s| == |c.bytes| - HALF_SIZE
    ensures Password(c) + s == c.bytes
  {
    c.bytes[HALF_SIZE..]
  }

  /** `to_vec`: the password half followed by the salt half, which is the
      credential itself. */
  function ToVec(c: Credential): (v: seq<byte>)
    requires |c.bytes| >= HALF_SIZE
    ensures v == c.bytes
    ensures |v| == |Password(c)| + |Salt(c)|
    ensures v[..HALF_SIZE] == Password(c) && v[HALF_SIZE..] == Salt(c)
  {
    Password(c) + Salt(c)
  }

  // ------------------------------------------------------------------- rows

  datatype UserRow = UserRow(id: int, salt: seq<byte>, credential: seq<byte>, suspend: int)

  datatype TokenRow = TokenRow(id: int, userId: int, credential: seq<byte>, lastActive: int)

  // ------------------------------------------------------------------ login

  /** The outcome of `login` and the value it writes to `user.suspend`, if any. */
  datatype LoginResult = LoginResult(outcome: Result<User, Failure>, suspendWrite: Option<int>)

  /** The `suspend` column after one more failed attempt: a counter until
      the fifth failure, then the time the suspension ends. */
  function NextSuspend(suspend: int, now: int): (s: int)
    ensures suspend + 1 < MAX_LOGIN_ATTEMPT ==> s == suspend + 1
    ensures suspend + 1 >= MAX_LOGIN_ATTEMPT ==> s == now + LOGIN_SUSPEND_DURATION && s > now
  {
    if suspend + 1 >= MAX_LOGIN_ATTEMPT then now + LOGIN_SUSPEND_DURATION else suspend + 1
  }

  /** `UserManager::login` given the row found by username. */
  function Login(c: Crypto, m: Manager, row: Option<UserRow>, password: seq<byte>, now: int): (r: LoginResult)
    requires Valid(m)
    ensures row.None? ==> r == LoginResult(Err(Api(Msg(WRONG_CREDENTIALS))), None)
    ensures row.Some? && row.value.suspend > now ==> r == LoginResult(Err(Api(Msg(TRY_LATER))), None)
    ensures row.Some? && row.value.suspend <= now ==>
      var plain := Decrypt(c, m, row.value.credential, password, row.value.salt);
      && (r.outcome.Ok? <==> plain.Ok?)
      && (plain.Ok? ==> r.outcome.value == User(row.value.id, Credential(plain.value)) && r.suspendWrite == Some(0))
      && (plain.Err? ==> r.outcome == Err(Api(Msg(WRONG_CREDENTIALS)))
                         && r.suspendWrite == Some(NextSuspend(row.value.suspend, now)))
  {
    match row
    case None => LoginResult(Err(Api(Msg(WRONG_CREDENTIALS))), None)
    case Some(u) =>
      if u.suspend > now then LoginResult(Err(Api(Msg(TRY_LATER))), None)
      else match Decrypt(c, m, u.credential, password, u.salt)
        case Ok(v) => LoginResult(Ok(User(u.id, Credential(v))), Some(0))
        case Err(_) => LoginResult(Err(Api(Msg(WRONG_CREDENTIALS))), Some(NextSuspend(u.suspend, now)))
  }

  /** A suspended user is turned away before the password is looked at. */
  lemma SuspendedIgnoresPassword(c: Crypto, m: Manager, u: UserRow, pw1: seq<byte>, pw2: seq<byte>, now: int)
    requires Valid(m)
    requires u.suspend > now
    ensures Login(c, m, Some(u), pw1, now) == Login(c, m, Some(u), pw2, now)
    ensures Login(c, m, Some(u), pw1, now).outcome.Err?
  {
  }

  /** An unknown username and a wrong password get the same answer. */
  lemma UnknownUserLooksLikeWrongPassword(c: Crypto, m: Manager, u: UserRow, pw: seq<byte>, now: int)
    requires Valid(m)
    requires u.suspend <= now
    requires Decrypt(c, m, u.credential, pw, u.salt).Err?
    ensures Login(c, m, Some(u), pw, now).outcome == Login(c, m, None, pw, now).outcome
  {
  }

  /** The `suspend` column after consecutive failures at the given times. */
  function AfterFailures(suspend: int, times: seq<int>): int
    decreases |times|
  {
    if |times| == 0 then suspend else AfterFailures(NextSuspend(suspend, times[0]), times[1..])
  }

  /** From a reset account, four failures only count, whenever they happen. */
  lemma {:induction false} FailuresCount(suspend: nat, times: seq<int>)
    requires suspend + |times| < MAX_LOGIN_ATTEMPT
    ensures AfterFailures(suspend, times) == suspend + |times|
    decreases |times|
  {
    if |times| > 0 {
      FailuresCount(suspend + 1, times[1..]);
    }
  }

  /** The fifth consecutive failure suspends the account for 300 seconds. */
  lemma FifthFailureSuspends(times: seq<int>)
    requires |times| == MAX_LOGIN_ATTEMPT
    ensures AfterFailures(0, times) == times[4] + LOGIN_SUSPEND_DURATION
  {
    FailuresCount(0, times[..4]);
    assert times[..4][1..][1..][1..][1..] == [];
    assert AfterFailures(0, times[..4]) == 4;
    assert times[4..] == [times[4]];
    AfterFailuresSplit(0, times, 4);
  }

  lemma {:induction false} AfterFailuresSplit(suspend: int, times: seq<int>, k: nat)
    requires k <= |times|
    ensures AfterFailures(suspend, times) == AfterFailures(AfterFailures(suspend, times[..k]), times[k..])
    decreases k
  {
    if k > 0 {
      assert times[..k][1..] == times[1..][..k - 1];
      assert times[k..] == times[1..][k - 1..];
      AfterFailuresSplit(NextSuspend(suspend, times[0]), times[1..], k - 1);
    }
  }

  /** Once a suspension has elapsed the column still holds a timestamp, so a
      single further failure suspends again: every attempt in the next 300
      seconds is refused, even with the right password. */
  lemma ElapsedSuspensionResuspends(c: Crypto, m: Manager, u: UserRow, bad: seq<byte>, good: seq<byte>,
                                    now: int, later: int)
    requires Valid(m)
    requires MAX_LOGIN_ATTEMPT - 1 <= u.suspend <= now
    requires Decrypt(c, m, u.credential, bad, u.salt).Err?
    requires now <= later < now + LOGIN_SUSPEND_DURATION
    ensures Login(c, m, Some(u), bad, now).suspendWrite == Some(now + LOGIN_SUSPEND_DURATION)
    ensures Login(c, m, Some(u.(suspend := now + LOGIN_SUSPEND_DURATION)), good, later)
         == LoginResult(Err(Api(Msg(TRY_LATER))), None)
  {
  }

  // ------------------------------------------------------------- create user

  /** The row `create_user` inserts into `user`. */
  datatype NewUserRow = NewUserRow(username: string, salt: seq<byte>, credential: seq<byte>, createdAt: int)

  datatype CreateResult = CreateResult(outcome: Result<User, Failure>, inserted: Option<NewUserRow>)

  /** `UserManager::create_user`. `existing` is the set of usernames already
      in the table (the column is UNIQUE, so `INSERT OR IGNORE` affects no row
      exactly when the name is taken) and `rowId` the id the insert gets. */
  function CreateUser(c: Crypto, m: Manager, username: string, password: seq<byte>,
                      random: seq<byte>, salt: seq<byte>, nonce: seq<byte>,
                      existing: set<string>, rowId: int, now: int): (r: CreateResult)
    requires Valid(m)
    requires |random| == CREDENTIAL_SIZE && |salt| == HALF_SIZE && |nonce| == AES_NONCE_SIZE
    ensures username == [] || password == [] ==> r == CreateResult(Err(Api(Msg(BAD_ARGUMENTS))), None)
    ensures r.outcome.Ok? <==> r.inserted.Some?
    ensures r.outcome.Ok? ==>
      && username != [] && password != [] && username !in existing
      && r.outcome.value == User(rowId, Credential(random))
      && r.inserted.value.username == username && r.inserted.value.salt == salt
      && r.inserted.value.createdAt == now
      && Encrypt(c, m, random, password, salt, nonce) == Ok(r.inserted.value.credential)
    ensures (username != [] && password != [] && username in existing
             && Encrypt(c, m, random, password, salt, nonce).Ok?) ==>
      r.outcome == Err(Api(Msg(USER_EXISTS)))
    ensures (username != [] && password != []
             && Encrypt(c, m, random, password, salt, nonce).Err?) ==>
      r == CreateResult(Err(Cipher(Encrypt(c, m, random, password, salt, nonce).error)), None)
  {
    if username == [] || password == [] then CreateResult(Err(Api(Msg(BAD_ARGUMENTS))), None)
    else
      var credential := Generate(random);
      match Encrypt(c, m, ToVec(credential), password, salt, nonce)
      case Err(e) => CreateResult(Err(Cipher(e)), None)
      case Ok(sealed) =>
        if username in existing then CreateResult(Err(Api(Msg(USER_EXISTS))), None)
        else CreateResult(Ok(User(rowId, credential)), Some(NewUserRow(username, salt, sealed, now)))
  }

  /** With a free name and a non-empty password, `create_user` inserts the
      salt and the password-encrypted credential and returns the new row id
      with the generated credential. */
  lemma CreateUserInserts(c: Crypto, m: Manager, username: string, password: seq<byte>,
                          random: seq<byte>, salt: seq<byte>, nonce: seq<byte>, sealed: seq<byte>,
                          existing: set<string>, rowId: int, now: int)
    requires Valid(m)
    requires |random| == CREDENTIAL_SIZE && |salt| == HALF_SIZE && |nonce| == AES_NONCE_SIZE
    requires username != [] && password != [] && username !in existing
    requires Encrypt(c, m, random, password, salt, nonce) == Ok(sealed)
    ensures CreateUser(c, m, username, password, random, salt, nonce, existing, rowId, now)
         == CreateResult(Ok(User(rowId, Credential(random))), Some(NewUserRow(username, salt, sealed, now)))
  {
    assert ToVec(Generate(random)) == random;
  }

  /** A user just created logs in with the same password and gets the
      credential generated for them back; the failure counter is reset. */
  lemma CreatedUserCanLogIn(c: Crypto, m: Manager, password: seq<byte>, random: seq<byte>,
                            salt: seq<byte>, nonce: seq<byte>, sealed: seq<byte>, rowId: int, later: int)
    requires WellBehaved(c) && Valid(m)
    requires |nonce| == AES_NONCE_SIZE && later >= 0
    requires Encrypt(c, m, random, password, salt, nonce) == Ok(sealed)
    ensures Login(c, m, Some(UserRow(rowId, salt, sealed, 0)), password, later)
         == LoginResult(Ok(User(rowId, Credential(random))), Some(0))
  {
    RoundTrip(c, m, random, password, salt, nonce);
  }

  // ------------------------------------------------------------------ tokens

  /** The 104 raw bytes of a token before base64url encoding. */
  function RawToken(c: Crypto, random: seq<byte>, rowId: int, sealed: seq<byte>): (raw: seq<byte>)
    requires |random| == CREDENTIAL_SIZE && InI64(rowId)
    ensures WellBehaved(c) ==> |raw| == TOKEN_SIZE
    ensures |raw| >= TOKEN_DIGEST_OFFSET
    ensures raw[..TOKEN_ID_OFFSET] == random
    ensures I64FromLe(raw[TOKEN_ID_OFFSET..TOKEN_DIGEST_OFFSET]) == rowId
    ensures raw[TOKEN_DIGEST_OFFSET..] == c.sha256(raw[..TOKEN_DIGEST_OFFSET] + sealed)
  {
    var head := random + I64ToLe(rowId);
    assert (head + c.sha256(head + sealed))[..TOKEN_DIGEST_OFFSET] == head;
    assert head[TOKEN_ID_OFFSET..TOKEN_DIGEST_OFFSET] == I64ToLe(rowId);
    head + c.sha256(head + sealed)
  }

  datatype Issued = Issued(token: string, row: TokenRow)

  /** `UserManager::create_token`: a fresh 64-byte credential encrypts the
      user's credential into the new `token` row whose id is `rowId`. */
  function CreateToken(c: Crypto, m: Manager, user: User, random: seq<byte>, nonce: seq<byte>,
                       rowId: int, now: int): (r: Result<Issued, Failure>)
    requires Valid(m)
    requires |user.credential.bytes| >= HALF_SIZE
    requires |random| == CREDENTIAL_SIZE && |nonce| == AES_NONCE_SIZE && InI64(rowId)
    ensures r.Ok? <==> Encrypt(c, m, user.credential.bytes, random[..HALF_SIZE], random[HALF_SIZE..], nonce).Ok?
    ensures r.Ok? ==>
      var sealed := Encrypt(c, m, user.credential.bytes, random[..HALF_SIZE], random[HALF_SIZE..], nonce).value;
      && r.value.row == TokenRow(rowId, user.id, sealed, now)
      && r.value.token == c.base64Encode(RawToken(c, random, rowId, sealed))
    ensures r.Err? ==>
      r.error == Cipher(Encrypt(c, m, user.credential.bytes, random[..HALF_SIZE], random[HALF_SIZE..], nonce).error)
  {
    var t := Generate(random);
    match Encrypt(c, m, ToVec(user.credential), Password(t), Salt(t), nonce)
    case Err(e) => Err(Cipher(e))
    case Ok(sealed) =>
      Ok(Issued(c.base64Encode(RawToken(c, random, rowId, sealed)), TokenRow(rowId, user.id, sealed, now)))
  }

  /** A user found by token, and the token row whose `last_active` is set to now. */
  datatype Found = Found(user: User, touched: int)

  /** `UserManager::find_user_optional`, with the `token` and `user` tables as maps by id. */
  function FindUserOptional(c: Crypto, m: Manager, token: string, tokens: map<int, TokenRow>,
                            users: map<int, UserRow>, now: int): (r: Result<Option<Found>, Failure>)
    requires Valid(m)
    ensures c.base64Decode(token).None? <==> r == Err(BadBase64)
    ensures r.Ok? && r.value.Some? ==>
      var raw := c.base64Decode(token).value;
      && |raw| == TOKEN_SIZE
      && var id := I64FromLe(raw[TOKEN_ID_OFFSET..TOKEN_DIGEST_OFFSET]);
      && id in tokens
      && c.sha256(raw[..TOKEN_DIGEST_OFFSET] + tokens[id].credential) == raw[TOKEN_DIGEST_OFFSET..]
      && now < tokens[id].lastActive + TOKEN_IDLE_DURATION
      && tokens[id].userId in users
      && r.value.value.touched == tokens[id].id
      && r.value.value.user.id == users[tokens[id].userId].id
      && Decrypt(c, m, tokens[id].credential, raw[..HALF_SIZE], raw[HALF_SIZE..TOKEN_ID_OFFSET])
         == Ok(r.value.value.user.credential.bytes)
    ensures c.base64Decode(token).Some? && |c.base64Decode(token).value| != TOKEN_SIZE ==> r == Ok(None)
    ensures c.base64Decode(token).Some? && |c.base64Decode(token).value| == TOKEN_SIZE ==>
      var raw := c.base64Decode(token).value;
      var id := I64FromLe(raw[TOKEN_ID_OFFSET..TOKEN_DIGEST_OFFSET]);
      && (id !in tokens ==> r == Ok(None))
      && (id in tokens && c.sha256(raw[..TOKEN_DIGEST_OFFSET] + tokens[id].credential) != raw[TOKEN_DIGEST_OFFSET..]
          ==> r == Ok(None))
      && (id in tokens && tokens[id].lastActive + TOKEN_IDLE_DURATION <= now ==> r == Ok(None))
      && (id in tokens && tokens[id].userId !in users ==> r == Ok(None))
      && (id in tokens && tokens[id].userId in users
          && c.sha256(raw[..TOKEN_DIGEST_OFFSET] + tokens[id].credential) == raw[TOKEN_DIGEST_OFFSET..]
          && now < tokens[id].lastActive + TOKEN_IDLE_DURATION ==>
            var plain := Decrypt(c, m, tokens[id].credential, raw[..HALF_SIZE], raw[HALF_SIZE..TOKEN_ID_OFFSET]);
            r == if plain.Err? then Err(Cipher(plain.error))
                 else Ok(Some(Found(User(users[tokens[id].userId].id, Credential(plain.value)), tokens[id].id))))
  {
    match c.base64Decode(token)
    case None => Err(BadBase64)
    case Some(raw) =>
      if |raw| != TOKEN_SIZE then Ok(None)
      else
        var id := I64FromLe(raw[TOKEN_ID_OFFSET..TOKEN_DIGEST_OFFSET]);
        if id !in tokens then Ok(None)
        else
          var t := tokens[id];
          if c.sha256(raw[..TOKEN_DIGEST_OFFSET] + t.credential) != raw[TOKEN_DIGEST_OFFSET..] then Ok(None)
          else if t.lastActive + TOKEN_IDLE_DURATION <= now then Ok(None)
          else if t.userId !in users then Ok(None)
          else match Decrypt(c, m, t.credential, raw[..HALF_SIZE], raw[HALF_SIZE..TOKEN_ID_OFFSET])
            case Err(e) => Err(Cipher(e))
            case Ok(credential) => Ok(Some(Found(User(users[t.userId].id, Credential(credential)), t.id)))
  }

  /** `UserManager::find_user`: a token that finds nobody is an invalid-token error. */
  function FindUser(c: Crypto, m: Manager, token: string, tokens: map<int, TokenRow>,
                    users: map<int, UserRow>, now: int): (r: Result<User, Failure>)
    requires Valid(m)
    ensures FindUserOptional(c, m, token, tokens, users, now) == Ok(None) <==> r == Err(Api(InvalidToken()))
    ensures r.Ok? <==> FindUserOptional(c, m, token, tokens, users, now).Ok?
                       && FindUserOptional(c, m, token, tokens, users, now).value.Some?
    ensures FindUserOptional(c, m, token, tokens, users, now).Err? ==>
      r == Err(FindUserOptional(c, m, token, tokens, users, now).error)
    ensures (FindUserOptional(c, m, token, tokens, users, now).Ok?
             && FindUserOptional(c, m, token, tokens, users, now).value.Some?) ==>
      r == Ok(FindUserOptional(c, m, token, tokens, users, now).value.value.user)
  {
    match FindUserOptional(c, m, token, tokens, users, now)
    case Err(e) => Err(e)
    case Ok(None) => Err(Api(InvalidToken()))
    case Ok(Some(found)) => Ok(found.user)
  }

  /** A token issued for a user and stored under its row id finds that user,
      with the same credential, for 300 seconds after it was issued. */
  lemma IssuedTokenFindsUser(c: Crypto, m: Manager, user: User, random: seq<byte>, nonce: seq<byte>,
                             sealed: seq<byte>, rowId: int, now: int, tokens: map<int, TokenRow>,
                             users: map<int, UserRow>, later: int)
    requires WellBehaved(c) && Valid(m)
    requires |user.credential.bytes| >= HALF_SIZE
    requires |random| == CREDENTIAL_SIZE && |nonce| == AES_NONCE_SIZE && InI64(rowId)
    requires Encrypt(c, m, user.credential.bytes, random[..HALF_SIZE], random[HALF_SIZE..], nonce) == Ok(sealed)
    requires user.id in users && users[user.id].id == user.id
    requires now <= later < now + TOKEN_IDLE_DURATION
    ensures CreateToken(c, m, user, random, nonce, rowId, now).Ok?
    ensures CreateToken(c, m, user, random, nonce, rowId, now).value.row == TokenRow(rowId, user.id, sealed, now)
    ensures FindUserOptional(c, m, CreateToken(c, m, user, random, nonce, rowId, now).value.token,
                             tokens[rowId := TokenRow(rowId, user.id, sealed, now)], users, later)
         == Ok(Some(Found(user, rowId)))
  {
    var raw := RawToken(c, random, rowId, sealed);
    assert c.base64Decode(c.base64Encode(raw)) == Some(raw);
    assert raw[..HALF_SIZE] == random[..HALF_SIZE];
    assert raw[HALF_SIZE..TOKEN_ID_OFFSET] == random[HALF_SIZE..];
    RoundTrip(c, m, user.credential.bytes, random[..HALF_SIZE], random[HALF_SIZE..], nonce);
  }

  /** Once the token has been idle for 300 seconds it finds nobody, and the
      RPC layer answers with the invalid-token error. */
  lemma IdleTokenExpires(c: Crypto, m: Manager, token: string, tokens: map<int, TokenRow>,
                         users: map<int, UserRow>, now: int)
    requires Valid(m)
    requires forall id :: id in tokens ==> tokens[id].lastActive + TOKEN_IDLE_DURATION <= now
    requires c.base64Decode(token).Some?
    ensures FindUserOptional(c, m, token, tokens, users, now) == Ok(None)
    ensures FindUser(c, m, token, tokens, users, now) == Err(Api(InvalidToken()))
  {
  }
}

=== FILE: wrappers.dfy ===
/** Option and Result, the failure-compatible wrappers used throughout the model. */
module Wrappers {

  datatype Option<+T> = None | Some(value: T) {
    predicate IsFailure() { None? }

    function PropagateFailure<U>(): Option<U>
      requires None?
    {
      None
    }

    function Extract(): T
      requires Some?
    {
      value
    }
  }

  datatype Result<+R, +E> = Ok(value: R) | Err(error: E) {
    predicate IsFailure() { Err? }

    function PropagateFailure<U>(): Result<U, E>
      requires Err?
    {
      Err(error)
    }

    function Extract(): R
      requires Ok?
    {
      value
    }
  }
}
